=== FILE: README.md ===
# Campaign naming, wizard and export — a Dafny model

This project models the logic at the centre of a campaign-planning web app.
Around it sit a hosted database and a React user interface. The model covers
three pieces:

- **The campaign-ID naming engine** (`naming.dfy`, on top of `text.dfy`). An
  advertising platform's rules turn a campaign name into an identifier:
  optional lower-casing, whitespace runs replaced by a separator, forbidden
  characters stripped, then truncation to the maximum length. A validator
  checks an identifier against the same rules. It reports errors (too long,
  forbidden characters) and a warning (characters outside the allowed set).
  Two smaller pure pieces from the same query module are modelled too: the
  dashboard statistics aggregation (`dashboard.dfy`) and the search pagination
  arithmetic (`search.dfy`).
- **The campaign creation wizard** (`wizard.dfy`). It is a state machine over
  four steps (platform, basic info, taxonomy, review). Each step has a gate
  that must hold before the user can advance. The draft accumulates as the
  user goes, and the identifier is recomputed from the name and the selected
  platform. User actions are events. `Enabled` says which controls the
  rendered step offers, `Apply` gives each event's effect, and `Inv` is the
  invariant every reachable state keeps.
- **The export dialog** (`export.dfy`). It covers the search/platform/status
  filter, toggling one selection, select-all, the default selection after a
  load, the export guard and exported rows, and the grouping by platform
  name used by the implementation guide.

`common.dfy` holds `Option`, `Result` and the JavaScript truthiness of optional
strings and numbers. `campaigns.dfy` holds the campaign record and its status. `export.dfy` defines `Subsequence`, the order-preserving subsequence relation its filters are stated with.

## Model

| member | source | states |
|---|---|---|
| Naming.Generate | src/app/lib/supabase/queries.ts:434-464 | With no (or an empty) naming convention the name comes back unchanged. Otherwise the result is never longer than the name, and never longer than max(k, 0) characters when a truthy maximum length k is set. It contains no forbidden character, no whitespace when a separator is asked for, and no upper-case ASCII letter when lower case is asked for. |
| Naming.GenerateTruncates | src/app/lib/supabase/queries.ts:458-460 | With a convention, the identifier under a truthy limit k is the first min(max(k, 0), n) characters of the identifier generated without a limit, whose length is n. Without a truthy limit the two identifiers are equal. |
| Naming.GenerateKeepsVisible | src/app/lib/supabase/queries.ts:438-455 | With a convention and no limit, removing the separators from the identifier gives the case-adjusted name without its whitespace and without its forbidden characters, in order. This holds when the name itself does not contain the separator. |
| Naming.CaseKeepsSeparatorOut | src/app/lib/supabase/queries.ts:440-442 | Case adjustment never introduces a `-` or `_` that the name did not contain. |
| Naming.Separator | src/app/lib/supabase/queries.ts:445-449 | A separator is chosen exactly when the convention mentions `hyphens` or `underscores`. It is `-` whenever `hyphens` is mentioned, and `_` when only `underscores` is. It is never whitespace. |
| Naming.ApplyLimit | src/app/lib/supabase/queries.ts:458-460 | Truncation keeps a prefix of the input, and the whole input when the limit is falsy. Under a truthy limit k it keeps exactly min(max(k, 0), n) characters of an input of length n. |
| Text.Prefix | src/app/lib/supabase/queries.ts:459 | `substring(0, k)` yields a prefix of the string. It has exactly k characters when k is within the string, is the whole string when k reaches or passes the end, and is empty for a negative k. |
| Naming.Validate | src/app/lib/supabase/queries.ts:466-496 | `isValid` holds iff there are no errors. Each error appears at most once: there is one error per violated rule (length, forbidden characters) and no other. There is at most one warning. A length error is present iff the limit is truthy and the id is longer, and it comes first. The forbidden-character error is present iff some character is forbidden, and it comes last. The warning is present iff an allowed set is given and the id is empty or uses a character outside it. |
| Naming.ZeroLimitDisablesLengthCheck | src/app/lib/supabase/queries.ts:471 | A maximum length of 0 or none never yields a length error. |
| Naming.ValidateIgnoresConvention | src/app/lib/supabase/queries.ts:466-496 | Changing the naming convention never changes the validation result. |
| Naming.WarningsNeverAffectValidity | src/app/lib/supabase/queries.ts:484-492 | Changing the allowed-character rule changes neither validity nor errors. |
| Naming.EmptyRuleBaseline | src/app/lib/supabase/queries.ts:434-496 | A platform with no rule at all generates the name itself, and any id is valid with no warning. |
| Naming.GeneratedPassesValidation | src/app/lib/supabase/queries.ts:438-481 | With a convention and a non-negative (or no) limit, every generated identifier validates with no error. |
| Naming.NoConventionReportsLength | src/app/lib/supabase/queries.ts:438-473 | Without a convention a name longer than a positive limit passes through untruncated, and validation rejects it with the length error. |
| Naming.NegativeLimitRejectsGenerated | src/app/lib/supabase/queries.ts:458-473 | A negative limit truncates to the empty string, yet validation still reports the length error. Generation and validation disagree here. |
| Naming.GenerateIdempotent | src/app/lib/supabase/queries.ts:434-464 | Generating from a generated identifier changes nothing. |
| Naming.LowercaseHyphensConvention | src/app/lib/supabase/queries.ts:440-446 | The convention "lowercase hyphens" asks for lower case and for `-` as separator. |
| Naming.SummerSaleExample | src/app/lib/supabase/queries.ts:438-460 | "Summer Sale!!" under "lowercase hyphens", forbidden "!" and maximum 10 becomes "summer-sal". This fixes the step order. |
| Naming.DotIsLiteral | src/app/lib/supabase/queries.ts:451-455 | A forbidden `.` removes literal periods only and every other character is kept. It is not a wildcard. |
| Text.Lower | src/app/lib/supabase/queries.ts:441 | Lower-casing keeps the length and maps each character on its own. |
| Text.LowerIdempotent | src/app/lib/supabase/queries.ts:441 | Lower-casing twice equals lower-casing once. |
| Text.Strip | src/app/lib/supabase/queries.ts:453-454 | Removing a character set keeps exactly the characters of the input that are not in the set. |
| Text.StripIdempotent | src/app/lib/supabase/queries.ts:453-454 | Stripping twice equals stripping once. |
| Text.StripUnion | src/app/lib/supabase/queries.ts:453-454 | Stripping one set and then another equals stripping their union once. |
| Text.ReplaceRuns | src/app/lib/supabase/queries.ts:446 | Replacing whitespace runs leaves no whitespace, never lengthens the string, and introduces no character except the separator. |
| Text.ReplaceRunsCollapse | src/app/lib/supabase/queries.ts:446 | A whole non-empty whitespace run after a whitespace-free prefix becomes exactly one separator, whatever its length. The text after the run is processed on its own. |
| Text.ReplaceRunsJoinsWords | src/app/lib/supabase/queries.ts:446 | Two whitespace-free words around any non-empty whitespace run are joined by exactly one separator. |
| Text.ReplaceRunsKeepsVisible | src/app/lib/supabase/queries.ts:446 | Run replacement keeps every non-whitespace character in order. Removing the separators gives back the input without its whitespace. |
| Text.ReplaceRunsIdempotent | src/app/lib/supabase/queries.ts:446 | Replacing runs twice equals replacing them once. |
| Dashboard.Aggregate | src/app/lib/supabase/queries.ts:405-417 | The total is the number of campaigns, and the active count is at most the total. The per-platform and per-status maps have exactly the occurring keys, each mapped to its multiplicity. The active count equals the `active` entry, or 0. The recent list is the first min(5, n) campaigns. |
| Dashboard.CountsSumToTotal | src/app/lib/supabase/queries.ts:405-415 | The per-status counts add up to the total, and so do the per-platform counts. |
| Dashboard.TallySum | src/app/lib/supabase/queries.ts:412-415 | The counting fold over n keys yields counts that sum to n. |
| Dashboard.Tally | src/app/lib/supabase/queries.ts:412-415 | The counting map has exactly the keys that occur, and each key is mapped to the number of its occurrences. |
| Dashboard.GetStats | src/app/lib/supabase/queries.ts:395-430 | A failed fetch returns its message. Missing rows count as no campaigns. |
| Search.CeilDiv | src/app/lib/supabase/queries.ts:308 | For a positive limit the page count covers the total, one page fewer would not, and it is 0 exactly when the total is 0. |
| Search.CeilDivIsLeast | src/app/lib/supabase/queries.ts:308 | The page count is the least page count that covers the total. |
| Search.Requested | src/app/lib/supabase/queries.ts:265-305 | The requested inclusive range spans exactly `limit` rows, and page 1 starts at row 0. |
| Search.PagesAreAdjacent | src/app/lib/supabase/queries.ts:265-305 | Consecutive pages request adjacent ranges that do not overlap. |
| Search.RowOnItsPage | src/app/lib/supabase/queries.ts:265-308 | Every row lies in the range of page `row / limit + 1`, and that page exists whenever the row does. |
| Search.Paginate | src/app/lib/supabase/queries.ts:303-318 | The pagination block carries the page and limit. A missing count means a total of 0. The page count covers the total exactly as `ceil` does. |
| Wizard.Identify | src/components/features/campaign/wizard/CampaignWizard.tsx:101-114 | The cached record holds the name, the generated identifier, the platform's name and the identifier's validation. |
| Wizard.Recompute | src/components/features/campaign/wizard/CampaignWizard.tsx:75-79 | With a platform and a non-empty name the identifier is rederived. Otherwise the previous one is kept. Nothing else changes. |
| Wizard.UpdateStepCompletion | src/components/features/campaign/wizard/CampaignWizard.tsx:132-136 | Only the given step's completed flag changes. |
| Wizard.Activate | src/components/features/campaign/wizard/CampaignWizard.tsx:166-169 | Activating an index makes exactly that step active and changes nothing else in any step. |
| Wizard.Gate | src/components/features/campaign/wizard/CampaignWizard.tsx:138-154 | Step 0 passes iff a platform id is set. Step 1 passes iff the name and objective are non-empty. Step 2 passes iff every required category has a non-empty value. Step 3 passes iff an identifier is cached and valid. No other index passes. |
| Wizard.LoadCategories | src/components/features/campaign/wizard/CampaignWizard.tsx:91 | A failed category load leaves the wizard as it was. A successful one replaces the catalog and nothing else. |
| Wizard.Next | src/components/features/campaign/wizard/CampaignWizard.tsx:156-171 | A failing gate changes nothing. Otherwise the current step is marked completed and, before the last step, the next step becomes the only active one. At the last step the index stays. No completed flag is cleared, every other step's completed flag is unchanged, and every step keeps its id, title and description. |
| Wizard.Previous | src/components/features/campaign/wizard/CampaignWizard.tsx:173-181 | At step 0 it does nothing. Otherwise it moves back one step and makes that step the only active one. All completed flags, every step's id, title and description, and the draft are unchanged. |
| Wizard.SelectPlatform | src/components/features/campaign/wizard/CampaignWizard.tsx:116-120 | Selecting a platform records it and its id in the draft and marks step 0 completed at once, changing nothing else in that step. The other steps are untouched. The identifier is rederived when a name exists. |
| Wizard.ChangeTaxonomy | src/components/features/campaign/wizard/CampaignWizard.tsx:122-130 | Only the one taxonomy key changes. Every other key, every other draft field, the platform, the catalog, the steps and the current index keep their values. The cached identifier is unchanged only in states that keep the invariant (see Wizard.TaxonomyKeepsId). |
| Wizard.EditField | src/components/features/campaign/wizard/CampaignWizard.tsx:57-79 | An edit changes only its field. Only a name edit can change the cached identifier. |
| Wizard.Reset | src/components/features/campaign/wizard/CampaignWizard.tsx:213-229 | The wizard returns to step 0 with the fixed step list and an empty draft, and the platform and identifier are cleared. |
| Wizard.Submit | src/components/features/campaign/wizard/CampaignWizard.tsx:183-211 | Without a user or a platform, or when the call fails or throws, nothing changes. On success the wizard resets. |
| Wizard.Payload | src/components/features/campaign/wizard/CampaignWizard.tsx:188-193 | The submitted record is the draft with the user id, status `draft` and the cached identifier, if any. |
| Wizard.InitialState | src/components/features/campaign/wizard/CampaignWizard.tsx:38-67 | Initially step 0 is the only active step, no step is completed, the draft is empty, and the invariant holds. |
| Wizard.ResetIsInitial | src/components/features/campaign/wizard/CampaignWizard.tsx:213-229 | Reset restores exactly the initial state, keeping the loaded category catalog. |
| Wizard.ApplyPreservesInv | src/components/features/campaign/wizard/CampaignWizard.tsx:132-181 | Every enabled event keeps the invariant. Exactly one step is active, at the current index. Every earlier step is completed. The platform id matches the selected platform. The identifier is fresh. |
| Wizard.RunPreservesInv | src/components/features/campaign/wizard/CampaignWizard.tsx:132-229 | Any sequence of events keeps the invariant. |
| Wizard.CompletionIsMonotone | src/components/features/campaign/wizard/CampaignWizard.tsx:132-181 | Except for a successful submission, which resets, no event clears a completed flag. |
| Wizard.ReviewSeesFreshId | src/components/features/campaign/wizard/CampaignWizard.tsx:138-154 | On the review step the cached identifier is the one derived from the current name and platform. The review gate is exactly its validity. |
| Wizard.ReachedReviewIsFresh | src/components/features/campaign/wizard/CampaignWizard.tsx:75-171 | Whatever the user did, reaching the review step means a platform is selected and the identifier is fresh. |
| Wizard.ReviewGateOpens | src/components/features/campaign/wizard/CampaignWizard.tsx:149-150 | With a convention and a non-negative limit the review gate holds, and the submitted record carries the generated identifier. |
| Wizard.TaxonomyKeepsId | src/components/features/campaign/wizard/CampaignWizard.tsx:75-79 | In any state that keeps the invariant (every reachable state), a taxonomy change never alters the identifier. |
| Wizard.HappyPath | src/components/features/campaign/wizard/CampaignWizard.tsx:91-171 | Starting from the initial state, loading a category catalog, choosing a platform, entering a name and objective, pressing Next, choosing a non-empty value for every category and pressing Next again reaches the review step. The invariant holds there, every earlier step is completed, every category is filled, and Create is enabled. This holds for a convention with a non-negative or no limit. |
| Wizard.ReachTaxonomy | src/components/features/campaign/wizard/CampaignWizard.tsx:116-171 | After the catalog load, choosing a platform, entering a name and objective and pressing Next twice reaches the taxonomy step with the catalog, the name and the platform in place. |
| Wizard.RunChoices | src/components/features/campaign/wizard/CampaignWizard.tsx:122-130 | On the taxonomy step, choosing a non-empty value for each shown category fills every one of them. Keys that were filled stay filled, and the step, catalog, platform, name and objective are unchanged. |
| Wizard.RunAppend | src/components/features/campaign/wizard/CampaignWizard.tsx:132-229 | Running two event sequences one after the other equals running their concatenation. |
| Wizard.FooterControls | src/components/features/campaign/wizard/CampaignWizard.tsx:534-562 | In every state that keeps the invariant, Next and Create are never both offered. One of them is enabled exactly when the current step's gate holds, and Previous is enabled exactly off step 0. |
| Wizard.FirstStepGuards | src/components/features/campaign/wizard/CampaignWizard.tsx:156-181 | From the initial state Previous does nothing. Next without a platform does nothing either. |
| Export.Filter | src/components/features/campaign/export/ExportManager.tsx:97-104 | A campaign is listed iff it matches the search (in its name or objective, ignoring case), the platform filter and the status filter. The list keeps the loaded order, as an order-preserving subsequence. |
| Export.FilterCounts | src/components/features/campaign/export/ExportManager.tsx:97-104 | Every copy of a matching campaign is kept and no copy of any other, so repeated rows keep their multiplicity. |
| Export.NoFiltersListAll | src/components/features/campaign/export/ExportManager.tsx:97-104 | With an empty query and no filters every campaign is listed. |
| Export.Toggle | src/components/features/campaign/export/ExportManager.tsx:114-122 | Toggling flips the membership of one id and no other. |
| Export.ToggleTwice | src/components/features/campaign/export/ExportManager.tsx:114-122 | Toggling the same id twice restores the selection. |
| Export.SelectAll | src/components/features/campaign/export/ExportManager.tsx:106-112 | When the selection has as many ids as the filtered list has rows, the selection is cleared. Otherwise it becomes exactly the filtered ids. |
| Export.SelectAllComparesSizesOnly | src/components/features/campaign/export/ExportManager.tsx:107 | A selection of one hidden campaign is cleared even though the one visible campaign is not selected, because only sizes are compared. |
| Export.Load | src/components/features/campaign/export/ExportManager.tsx:80-84 | When rows arrive they replace the list and every loaded id is selected. Otherwise nothing changes. |
| Export.ExportRows | src/components/features/campaign/export/ExportManager.tsx:208-216 | An empty selection is refused. Otherwise the rows are exactly the loaded campaigns whose id is selected, in loaded order. |
| Export.SelectedRows | src/components/features/campaign/export/ExportManager.tsx:216 | The exported rows are exactly the loaded campaigns whose id is selected, in loaded order, each kept as many times as it was loaded. |
| Export.ExportIgnoresFilters | src/components/features/campaign/export/ExportManager.tsx:216 | The filters do not change what is exported. |
| Export.LoadThenExportAll | src/components/features/campaign/export/ExportManager.tsx:80-84 | Right after a non-empty load, export yields every loaded campaign. |
| Export.FindPlatform | src/components/features/campaign/export/ExportManager.tsx:155 | The platform found is the first one with the campaign's platform id. None is found only when no platform has that id. |
| Export.GroupNameSpec | src/components/features/campaign/export/ExportManager.tsx:155-156 | The heading is the name of the first platform with the campaign's platform id, or `Unknown` when no platform has that id or its name is empty. |
| Export.GroupName | src/components/features/campaign/export/ExportManager.tsx:156 | The heading is never empty. |
| Export.AddToGroup | src/components/features/campaign/export/ExportManager.tsx:158-161 | One grouping step appends the campaign to its heading's group, opening a new group at the end if needed. The heading count grows by one only then, and the member total grows by one. |
| Export.GroupByPlatform | src/components/features/campaign/export/ExportManager.tsx:154-163 | The grouping yields no heading twice. Its headings are exactly the headings of the rows, and its groups hold as many campaigns as there are rows. |
| Export.GroupByPlatformSpec | src/components/features/campaign/export/ExportManager.tsx:154-163 | The guide's headings are unique and are exactly the rows' headings. Each heading holds exactly the rows listed under it, in their order, and all groups together hold every row once. |
| Export.EachRowInOneGroup | src/components/features/campaign/export/ExportManager.tsx:154-167 | Every exported campaign lands in exactly one group, the one named after its platform. The guide's total-count line equals the number of exported rows. |

## Left out

- Database queries, authentication and sessions: they are remote I/O through a foreign client. Fetch and insert results enter the model as parameters (`Fetch`, `SubmitOutcome`, `Option` rows).
- Taxonomy management screens, pages and layout: they are remote CRUD and UI composition. The home page's search filter duplicates the export filter.
- JSX rendering, toasts, and the loading and submitting flags: they are presentation and async plumbing. The submit button's extra "not submitting" condition is therefore not modelled.
- The platform and taxonomy-value loads of the wizard: they only fill lists the model takes as given. The category load is modelled as `CategoriesLoaded`.
- CSV and JSON output, file saving, and date formatting in the export dialog: they are foreign libraries and clock-dependent. The guide is modelled as its grouping and total count, not as Markdown text.
- Budgets: `budget` is a floating-point number, so the draft has no budget field and the dashboard has no `total_budget`.
- Naming.Generate: lower-casing is ASCII-only. Non-ASCII letters keep their case, whereas JavaScript lowers them too.
- Naming.Generate: forbidden and allowed characters are literal sets. In the source, `-` is not escaped, so a rule such as "a-z" becomes a regular-expression range. The model assumes no interior `-`.
- Naming.Validate: it shares the literal-set reading of the character rules above.
- Naming.Validate: the forbidden and allowed character classes match single characters. The source's regular expressions have no `u` flag, so they match single UTF-16 code units. A rule or identifier with characters outside the Basic Multilingual Plane can therefore match through a shared surrogate in the source, and not in the model.
- Naming.Validate: lengths count characters, where JavaScript's `length` counts UTF-16 code units. An identifier with characters outside the Basic Multilingual Plane can pass the model's length check and fail the source's.
- Text.Prefix: `k` counts characters, where JavaScript's `substring` counts UTF-16 code units.
- Naming.Generate: forbidden characters are removed whole. The source's regular expression has no `u` flag, so a forbidden character outside the Basic Multilingual Plane removes its surrogates one by one, and can leave half of another character behind.
- Naming.Generate: truncation counts characters, where JavaScript's `substring` counts UTF-16 code units and can split a surrogate pair. The model never produces half a character.
- Naming.Platform: the maximum length is an integer. A fractional maximum would make `substring` truncate, which is not modelled.
- Export.GroupByPlatform: groups appear in first-occurrence order. A JavaScript object lists integer-like keys (such as a platform named "2") first in ascending order, and that ordering is not modelled.
- Export.Filter: search matching lower-cases ASCII letters only. JavaScript's `toLowerCase` also lowers other letters, so a non-ASCII query can match in the source and not in the model.
- Wizard.Gate: taxonomy values are looked up in a map. In the source, `taxonomy_data` is a plain object, so a required category named like an inherited property ("constructor", "toString") reads as filled even when nothing was chosen. The model treats such a name as unfilled.
- Export.GroupByPlatform: groups are a list of named groups. In the source they are a plain object, so a platform named like an inherited property ("constructor", "toString") makes `groups[platformName].push` fail. The model groups such a platform like any other.
- Export.Filters: the status filter is `Option<Status>` because the drop-down offers only the four statuses. An arbitrary status string is not modelled.
- Search.Paginate: it requires a positive limit. With limit 0 the source computes `total / 0`, which is not modelled.
- Wizard.Apply: closing the dialog keeps the whole state because the component stays mounted. Reopening therefore resumes the draft.

=== FILE: campaigns.dfy ===
/** Stored campaign records, as read back from the campaign table. */
module Campaigns {
  import opened Common

  /** The four lifecycle states a campaign row can be in. */
  datatype Status = Draft | Active | Paused | Completed

  /** A persisted campaign. The budget and the timestamps are not part of the
      model (floating point and clock values). */
  datatype Campaign = Campaign(
    id: string,
    name: string,
    platformId: string,
    userId: string,
    status: Status,
    startDate: Option<string>,
    endDate: Option<string>,
    objective: Option<string>,
    targetAudience: Option<string>,
    notes: Option<string>,
    generatedId: Option<string>,
    taxonomy: map<string, string>)
}

=== FILE: common.dfy ===
/** Small failure-carrying datatypes shared by every module of the model. */
module Common {

  /** An optional (`?`) field of a record, or a `null`/`undefined` result. */
  datatype Option<T> = None | Some(value: T)

  /** JavaScript's `o || fallback` for a field whose present values are all
      truthy: the value when present, the fallback when absent. */
  function ValueOr<T>(o: Option<T>, fallback: T): T {
    if o.Some? then o.value else fallback
  }

  /** The outcome of an operation that either produces a value or reports an error. */
  datatype Result<+T, +E> = Ok(value: T) | Err(error: E)

  /** JavaScript truthiness of an optional string: present and non-empty. */
  predicate TruthyString(o: Option<string>) {
    o.Some? && o.value != ""
  }

  /** JavaScript truthiness of an optional integer: present and non-zero. */
  predicate TruthyInt(o: Option<int>) {
    o.Some? && o.value != 0
  }
}

=== FILE: dashboard.dfy ===
/** The pure part of the dashboard query: the statistics computed over the
    fetched campaigns. */
module Dashboard {
  import opened Common
  import opened Campaigns

  /** Counts how often each key occurs, folding left to right as `forEach`
      does over the fetched rows. */
  function Tally<K(==,!new)>(keys: seq<K>): (m: map<K, nat>)
    ensures forall k :: k in m <==> k in keys
    ensures forall k :: k in m ==> m[k] == multiset(keys)[k]
  {
    if |keys| == 0 then map[]
    else
      var prev := Tally(keys[..|keys| - 1]);
      var k := keys[|keys| - 1];
      assert keys == keys[..|keys| - 1] + [k];
      prev[k := (if k in prev then prev[k] else 0) + 1]
  }

  /** Some key of a non-empty map. */
  ghost function Pick<K>(m: map<K, nat>): (k: K)
    requires m != map[]
    ensures k in m
  {
    assert exists k :: k in m.Keys by {
      assert m.Keys != {};
    }
    var k :| k in m;
    k
  }

  /** The sum of the values of a map. */
  ghost function SumValues<K>(m: map<K, nat>): nat
    decreases |m|
  {
    if m == map[] then 0
    else
      var k := Pick(m);
      assert |m - {k}| < |m| by {
        assert (m - {k}).Keys == m.Keys - {k};
      }
      m[k] + SumValues(m - {k})
  }

  /** Any key can be taken out first when summing. */
  lemma {:induction false} SumValuesRemove<K>(m: map<K, nat>, k: K)
    requires k in m
    ensures SumValues(m) == m[k] + SumValues(m - {k})
    decreases |m|
  {
    var j := Pick(m);
    if j != k {
      var mj, mk := m - {j}, m - {k};
      assert |mj| < |m| by {
        assert mj.Keys == m.Keys - {j};
      }
      assert |mk| < |m| by {
        assert mk.Keys == m.Keys - {k};
      }
      SumValuesRemove(mj, k);
      SumValuesRemove(mk, j);
      assert mj - {k} == mk - {j};
    }
  }

  /** The tally of `n` keys sums to `n`. */
  lemma {:induction false} TallySum<K(!new)>(keys: seq<K>)
    ensures SumValues(Tally(keys)) == |keys|
  {
    if |keys| > 0 {
      var init := keys[..|keys| - 1];
      var k := keys[|keys| - 1];
      var prev := Tally(init);
      var m := Tally(keys);
      TallySum(init);
      SumValuesRemove(m, k);
      assert m - {k} == prev - {k};
      if k in prev {
        SumValuesRemove(prev, k);
      } else {
        assert prev - {k} == prev;
      }
    }
  }

  /** The number of campaigns in a given status. */
  function CountStatus(cs: seq<Campaign>, s: Status): (n: nat)
    ensures n <= |cs|
  {
    if |cs| == 0 then 0
    else CountStatus(cs[..|cs| - 1], s) + (if cs[|cs| - 1].status == s then 1 else 0)
  }

  function Statuses(cs: seq<Campaign>): (r: seq<Status>)
    ensures |r| == |cs| && forall i :: 0 <= i < |cs| ==> r[i] == cs[i].status
  {
    seq(|cs|, i requires 0 <= i < |cs| => cs[i].status)
  }

  function PlatformIds(cs: seq<Campaign>): (r: seq<string>)
    ensures |r| == |cs| && forall i :: 0 <= i < |cs| ==> r[i] == cs[i].platformId
  {
    seq(|cs|, i requires 0 <= i < |cs| => cs[i].platformId)
  }

  lemma {:induction false} CountStatusIsMultiplicity(cs: seq<Campaign>, s: Status)
    ensures CountStatus(cs, s) == multiset(Statuses(cs))[s]
  {
    if |cs| > 0 {
      var init := cs[..|cs| - 1];
      CountStatusIsMultiplicity(init, s);
      assert Statuses(cs) == Statuses(init) + [cs[|cs| - 1].status];
    }
  }

  /** The figures the dashboard shows. The total budget is not modelled. */
  datatype Stats = Stats(
    totalCampaigns: nat,
    activeCampaigns: nat,
    byPlatform: map<string, nat>,
    byStatus: map<Status, nat>,
    recent: seq<Campaign>)

  /** The aggregation `getStats` performs over the fetched campaigns. */
  function Aggregate(cs: seq<Campaign>): (st: Stats)
    ensures st.totalCampaigns == |cs|
    ensures st.activeCampaigns <= st.totalCampaigns
    ensures forall pid :: pid in st.byPlatform <==> pid in PlatformIds(cs)
    ensures forall pid :: pid in st.byPlatform ==> st.byPlatform[pid] == multiset(PlatformIds(cs))[pid]
    ensures forall s :: s in st.byStatus <==> s in Statuses(cs)
    ensures forall s :: s in st.byStatus ==> st.byStatus[s] == multiset(Statuses(cs))[s]
    ensures Active in st.byStatus ==> st.activeCampaigns == st.byStatus[Active]
    ensures Active !in st.byStatus ==> st.activeCampaigns == 0
    ensures |st.recent| == if |cs| < 5 then |cs| else 5
    ensures st.recent <= cs
  {
    CountStatusIsMultiplicity(cs, Active);
    var byPlatform := Tally(PlatformIds(cs));
    var byStatus := Tally(Statuses(cs));
    Stats(
      |cs|,
      CountStatus(cs, Active),
      byPlatform,
      byStatus,
      if |cs| < 5 then cs else cs[..5])
  }

  /** The per-status and per-platform counts each add up to the total. */
  lemma {:induction false} CountsSumToTotal(cs: seq<Campaign>)
    ensures SumValues(Aggregate(cs).byStatus) == Aggregate(cs).totalCampaigns
    ensures SumValues(Aggregate(cs).byPlatform) == Aggregate(cs).totalCampaigns
  {
    TallySum(Statuses(cs));
    TallySum(PlatformIds(cs));
  }

  /** What the campaign fetch returned. */
  datatype Fetch = Fetched(rows: Option<seq<Campaign>>) | FetchFailed(message: string)

  /** `getStats`: a failed fetch reports its message; missing rows count as none. */
  function GetStats(f: Fetch): (r: Result<Stats, string>)
    ensures f.FetchFailed? ==> r == Err(f.message)
    ensures f.Fetched? ==> r.Ok? && r.value == Aggregate(ValueOr(f.rows, []))
    ensures f == Fetched(None) ==> r.Ok? && r.value.totalCampaigns == 0 && r.value.byStatus == map[]
  {
    match f
    case FetchFailed(message) => Err(message)
    case Fetched(rows) => Ok(Aggregate(ValueOr(rows, [])))
  }
}

=== FILE: export.dfy ===
/** The export dialog: filtering the loaded campaigns, maintaining the set of
    selected campaign ids, choosing the rows to export, and grouping them by
    platform for the implementation guide. */
module Export {
  import opened Common
  import opened Text
  import opened Campaigns
  import Naming

  /** The search box and the two drop-down filters; an empty platform filter
      and an absent status filter match everything. */
  datatype Filters = Filters(query: string, platformId: string, status: Option<Status>)

  const NoFilters: Filters := Filters("", "", None)

  /** The rows `xs` appear in `ys` in the same order, possibly with rows of
      `ys` skipped in between. */
  predicate Subsequence(xs: seq<Campaign>, ys: seq<Campaign>)
    decreases |ys|
  {
    |xs| == 0
    || (|ys| > 0
        && ((xs[0] == ys[0] && Subsequence(xs[1..], ys[1..])) || Subsequence(xs, ys[1..])))
  }

  /** The name, or else the objective, contains the query, ignoring case. */
  predicate MatchesSearch(c: Campaign, query: string) {
    || Contains(Lower(c.name), Lower(query))
    || (c.objective.Some? && Contains(Lower(c.objective.value), Lower(query)))
  }

  /** The filter predicate applied to each loaded campaign. */
  predicate Matches(c: Campaign, f: Filters) {
    && MatchesSearch(c, f.query)
    && (f.platformId == "" || c.platformId == f.platformId)
    && (f.status.None? || c.status == f.status.value)
  }

  /** `filteredCampaigns`: the matching campaigns, in their loaded order. */
  function Filter(cs: seq<Campaign>, f: Filters): (r: seq<Campaign>)
    ensures |r| <= |cs|
    ensures forall c :: c in r <==> c in cs && Matches(c, f)
    ensures Subsequence(r, cs)
  {
    if |cs| == 0 then []
    else
      var rest := Filter(cs[1..], f);
      assert forall c :: c in cs <==> c == cs[0] || c in cs[1..];
      if Matches(cs[0], f) then
        assert ([cs[0]] + rest)[1..] == rest;
        [cs[0]] + rest
      else
        rest
  }

  /** The filter keeps every copy of a matching campaign and no copy of any other. */
  lemma {:induction false} FilterCounts(cs: seq<Campaign>, f: Filters, c: Campaign)
    ensures multiset(Filter(cs, f))[c] == if Matches(c, f) then multiset(cs)[c] else 0
  {
    if |cs| > 0 {
      FilterCounts(cs[1..], f, c);
      assert multiset(cs) == multiset{cs[0]} + multiset(cs[1..]) by {
        assert cs == [cs[0]] + cs[1..];
      }
      if Matches(cs[0], f) {
        var rest := Filter(cs[1..], f);
        assert multiset([cs[0]] + rest) == multiset{cs[0]} + multiset(rest);
      }
    }
  }

  /** With no query and no filter every campaign is listed. */
  lemma {:induction false} NoFiltersListAll(cs: seq<Campaign>)
    ensures Filter(cs, NoFilters) == cs
  {
    if |cs| > 0 {
      ContainsEmpty(Lower(cs[0].name));
      assert Lower("") == "";
      NoFiltersListAll(cs[1..]);
      assert cs == [cs[0]] + cs[1..];
    }
  }

  /** `handleSelectCampaign`: flips the membership of one id. */
  function Toggle(selected: set<string>, id: string): (r: set<string>)
    ensures id in r <==> id !in selected
    ensures forall x :: x != id ==> (x in r <==> x in selected)
  {
    if id in selected then selected - {id} else selected + {id}
  }

  /** Toggling the same id twice restores the selection. */
  lemma ToggleTwice(selected: set<string>, id: string)
    ensures Toggle(Toggle(selected, id), id) == selected
  {
  }

  /** The set of ids of a list of campaigns. */
  function IdSet(cs: seq<Campaign>): (r: set<string>)
    ensures forall x :: x in r <==> exists i :: 0 <= i < |cs| && cs[i].id == x
  {
    set i | 0 <= i < |cs| :: cs[i].id
  }

  /** `handleSelectAll`: when the selection has as many ids as the filtered list
      has rows, everything is deselected; otherwise the selection becomes the
      filtered ids. Only the sizes are compared. */
  function SelectAll(selected: set<string>, filtered: seq<Campaign>): (r: set<string>)
    ensures |selected| == |filtered| ==> r == {}
    ensures |selected| != |filtered| ==> forall x :: x in r <==> exists i :: 0 <= i < |filtered| && filtered[i].id == x
  {
    if |selected| == |filtered| then {} else IdSet(filtered)
  }

  /** Because only sizes are compared, a selection of one hidden campaign is
      cleared by the button even though the one visible campaign is not selected. */
  lemma SelectAllComparesSizesOnly(hidden: Campaign, visible: Campaign)
    requires hidden.id != visible.id
    ensures visible.id !in {hidden.id}
    ensures SelectAll({hidden.id}, [visible]) == {}
  {
  }

  /** The dialog's state. */
  datatype Manager = Manager(campaigns: seq<Campaign>, selected: set<string>, filters: Filters)

  /** The campaign load: when rows arrive, they replace the list and all of
      them are selected; otherwise nothing changes. */
  function Load(m: Manager, rows: Option<seq<Campaign>>): (r: Manager)
    ensures rows.None? ==> r == m
    ensures rows.Some? ==> r.campaigns == rows.value && r.filters == m.filters
    ensures rows.Some? ==> forall x :: x in r.selected <==> exists i :: 0 <= i < |rows.value| && rows.value[i].id == x
  {
    if rows.Some? then m.(campaigns := rows.value, selected := IdSet(rows.value)) else m
  }

  /** Why an export was refused. */
  datatype ExportError = NothingSelected

  /** The rows whose id is selected, in their loaded order. */
  function SelectedRows(cs: seq<Campaign>, selected: set<string>): (r: seq<Campaign>)
    ensures forall c :: c in r <==> c in cs && c.id in selected
    ensures Subsequence(r, cs)
    ensures forall c :: multiset(r)[c] == if c.id in selected then multiset(cs)[c] else 0
  {
    if |cs| == 0 then []
    else
      var rest := SelectedRows(cs[1..], selected);
      assert forall c :: c in cs <==> c == cs[0] || c in cs[1..];
      assert cs == [cs[0]] + cs[1..];
      if cs[0].id in selected then
        assert ([cs[0]] + rest)[1..] == rest;
        [cs[0]] + rest
      else
        rest
  }

  /** `handleExport`'s guard and row selection: refused with nothing selected,
      otherwise the loaded campaigns whose id is selected, whatever the filters. */
  function ExportRows(m: Manager): (r: Result<seq<Campaign>, ExportError>)
    ensures |m.selected| == 0 <==> r == Err(NothingSelected)
    ensures r.Ok? ==> Subsequence(r.value, m.campaigns)
    ensures r.Ok? ==> forall c :: c in r.value <==> c in m.campaigns && c.id in m.selected
  {
    if |m.selected| == 0 then Err(NothingSelected) else Ok(SelectedRows(m.campaigns, m.selected))
  }

  /** The filters shown do not change what is exported. */
  lemma ExportIgnoresFilters(m: Manager, f: Filters)
    ensures ExportRows(m.(filters := f)) == ExportRows(m)
  {
  }

  /** Right after a non-empty load, an export yields every loaded campaign. */
  lemma {:induction false} LoadThenExportAll(m: Manager, rows: seq<Campaign>)
    requires |rows| > 0
    ensures ExportRows(Load(m, Some(rows))) == Ok(rows)
  {
    var loaded := Load(m, Some(rows));
    assert rows[0].id in loaded.selected;
    SelectedAllRows(rows, loaded.selected);
  }

  lemma {:induction false} SelectedAllRows(cs: seq<Campaign>, selected: set<string>)
    requires forall i :: 0 <= i < |cs| ==> cs[i].id in selected
    ensures SelectedRows(cs, selected) == cs
  {
    if |cs| > 0 {
      SelectedAllRows(cs[1..], selected);
      assert cs == [cs[0]] + cs[1..];
    }
  }

  /** `platforms.find`: the first platform with the given id. */
  function FindPlatform(platforms: seq<Naming.Platform>, id: string): (r: Option<Naming.Platform>)
    ensures r.Some? ==> r.value in platforms && r.value.id == id
    ensures r.None? ==> forall i :: 0 <= i < |platforms| ==> platforms[i].id != id
    ensures r.Some? ==> exists i :: 0 <= i < |platforms| && platforms[i] == r.value
                          && forall j :: 0 <= j < i ==> platforms[j].id != id
  {
    if |platforms| == 0 then None
    else if platforms[0].id == id then Some(platforms[0])
    else
      var r := FindPlatform(platforms[1..], id);
      if r.Some? then
        var i :| 0 <= i < |platforms[1..]| && platforms[1..][i] == r.value
                 && forall j :: 0 <= j < i ==> platforms[1..][j].id != id;
        assert platforms[i + 1] == r.value;
        r
      else r
  }

  /** The heading a campaign is listed under in the guide. */
  function GroupName(c: Campaign, platforms: seq<Naming.Platform>): (r: string)
    ensures r != ""
  {
    var p := FindPlatform(platforms, c.platformId);
    if p.Some? && p.value.name != "" then p.value.name else "Unknown"
  }

  /** Platform `i` is the first in the list with its id. */
  predicate FirstWithId(platforms: seq<Naming.Platform>, i: int)
    requires 0 <= i < |platforms|
  {
    forall j :: 0 <= j < i ==> platforms[j].id != platforms[i].id
  }

  /** The heading is the name of the first platform with the campaign's
      platform id, or `Unknown` when there is no such platform or its name is
      empty. */
  lemma GroupNameSpec(c: Campaign, platforms: seq<Naming.Platform>)
    ensures (forall i :: 0 <= i < |platforms| ==> platforms[i].id != c.platformId) ==> GroupName(c, platforms) == "Unknown"
    ensures forall i :: 0 <= i < |platforms| && platforms[i].id == c.platformId && FirstWithId(platforms, i) ==>
      GroupName(c, platforms) == if platforms[i].name != "" then platforms[i].name else "Unknown"
  {
    var p := FindPlatform(platforms, c.platformId);
    if p.Some? {
      var k :| 0 <= k < |platforms| && platforms[k] == p.value
               && forall j :: 0 <= j < k ==> platforms[j].id != c.platformId;
      forall i | 0 <= i < |platforms| && platforms[i].id == c.platformId && FirstWithId(platforms, i)
        ensures platforms[i] == p.value
      {
        assert i == k;
      }
    }
  }

  /** One platform section of the guide. */
  datatype Group = Group(name: string, members: seq<Campaign>)

  /** The names of the groups, in order. */
  function Names(gs: seq<Group>): (r: seq<string>)
    ensures |r| == |gs| && forall i :: 0 <= i < |gs| ==> r[i] == gs[i].name
  {
    seq(|gs|, i requires 0 <= i < |gs| => gs[i].name)
  }

  /** No two groups share a name. */
  predicate UniqueNames(gs: seq<Group>) {
    forall i, j :: 0 <= i < j < |gs| ==> gs[i].name != gs[j].name
  }

  /** The members of the first group with the given name; none when there is no such group. */
  function MembersOf(gs: seq<Group>, name: string): seq<Campaign> {
    if |gs| == 0 then []
    else if gs[0].name == name then gs[0].members
    else MembersOf(gs[1..], name)
  }

  /** The number of campaigns over all groups. */
  function Total(gs: seq<Group>): nat {
    if |gs| == 0 then 0 else |gs[0].members| + Total(gs[1..])
  }

  /** One reduce step: the campaign joins the group with its name, or opens a
      new group at the end. */
  function AddToGroup(gs: seq<Group>, name: string, c: Campaign): (r: seq<Group>)
    ensures name in Names(gs) ==> Names(r) == Names(gs)
    ensures name !in Names(gs) ==> Names(r) == Names(gs) + [name]
    ensures forall k :: MembersOf(r, k) == if k == name then MembersOf(gs, k) + [c] else MembersOf(gs, k)
    ensures Total(r) == Total(gs) + 1
    decreases |gs|
  {
    if |gs| == 0 then
      [Group(name, [c])]
    else if gs[0].name == name then
      var r := [gs[0].(members := gs[0].members + [c])] + gs[1..];
      assert r[1..] == gs[1..];
      assert Names(r) == Names(gs) by {
        assert forall i :: 0 <= i < |r| ==> r[i].name == gs[i].name;
      }
      r
    else
      var rest := AddToGroup(gs[1..], name, c);
      var r := [gs[0]] + rest;
      assert r[1..] == rest;
      assert Names(gs) == [gs[0].name] + Names(gs[1..]);
      assert Names(r) == [gs[0].name] + Names(rest);
      r
  }

  /** The campaigns listed under a heading, in their order. */
  function WithName(rows: seq<Campaign>, platforms: seq<Naming.Platform>, name: string): (r: seq<Campaign>)
    ensures forall c :: c in r <==> c in rows && GroupName(c, platforms) == name
  {
    if |rows| == 0 then []
    else
      var init := rows[..|rows| - 1];
      var last := rows[|rows| - 1];
      assert rows == init + [last];
      WithName(init, platforms, name) + (if GroupName(last, platforms) == name then [last] else [])
  }

  /** The grouping `reduce` of the implementation guide: one group per heading,
      no heading twice, headings exactly those of the rows, every row counted once. */
  function GroupByPlatform(rows: seq<Campaign>, platforms: seq<Naming.Platform>): (gs: seq<Group>)
    ensures UniqueNames(gs)
    ensures forall k :: k in Names(gs) <==> k in Headings(rows, platforms)
    ensures Total(gs) == |rows|
  {
    if |rows| == 0 then []
    else
      var init := rows[..|rows| - 1];
      var last := rows[|rows| - 1];
      var prev := GroupByPlatform(init, platforms);
      HeadingsSnoc(rows, platforms);
      AddKeepsUnique(prev, GroupName(last, platforms), last);
      AddToGroup(prev, GroupName(last, platforms), last)
  }

  /** Adding a campaign keeps the group names unique. */
  lemma AddKeepsUnique(gs: seq<Group>, name: string, c: Campaign)
    requires UniqueNames(gs)
    ensures UniqueNames(AddToGroup(gs, name, c))
  {
    var r := AddToGroup(gs, name, c);
    forall i, j | 0 <= i < j < |r| ensures r[i].name != r[j].name {
      assert r[i].name == Names(r)[i] && r[j].name == Names(r)[j];
      if j < |gs| {
        assert Names(gs)[i] == gs[i].name && Names(gs)[j] == gs[j].name;
      } else {
        assert Names(gs)[i] == gs[i].name;
      }
    }
  }

  /** The headings the rows are listed under. */
  function Headings(rows: seq<Campaign>, platforms: seq<Naming.Platform>): (r: set<string>)
    ensures forall k :: k in r <==> exists i :: 0 <= i < |rows| && GroupName(rows[i], platforms) == k
  {
    set i | 0 <= i < |rows| :: GroupName(rows[i], platforms)
  }

  /** Headings of a prefix extended by one row. */
  lemma {:induction false} HeadingsSnoc(rows: seq<Campaign>, platforms: seq<Naming.Platform>)
    requires |rows| > 0
    ensures Headings(rows, platforms)
      == Headings(rows[..|rows| - 1], platforms) + {GroupName(rows[|rows| - 1], platforms)}
  {
    var init := rows[..|rows| - 1];
    forall k ensures k in Headings(rows, platforms) ==> k in Headings(init, platforms) + {GroupName(rows[|rows| - 1], platforms)} {
      if k in Headings(rows, platforms) {
        var i :| 0 <= i < |rows| && GroupName(rows[i], platforms) == k;
        if i < |init| {
          assert init[i] == rows[i];
        }
      }
    }
    forall k | k in Headings(init, platforms) ensures k in Headings(rows, platforms) {
      var i :| 0 <= i < |init| && GroupName(init[i], platforms) == k;
      assert rows[i] == init[i];
    }
  }

  /** Each heading holds exactly the rows with that heading, in their order. */
  lemma {:induction false} GroupMembers(rows: seq<Campaign>, platforms: seq<Naming.Platform>)
    ensures forall k :: MembersOf(GroupByPlatform(rows, platforms), k) == WithName(rows, platforms, k)
  {
    if |rows| > 0 {
      var init := rows[..|rows| - 1];
      var last := rows[|rows| - 1];
      var prev := GroupByPlatform(init, platforms);
      var name := GroupName(last, platforms);
      var gs := GroupByPlatform(rows, platforms);
      GroupMembers(init, platforms);
      assert gs == AddToGroup(prev, name, last);
      forall k
        ensures MembersOf(gs, k) == WithName(rows, platforms, k)
      {
        assert WithName(rows, platforms, k) == WithName(init, platforms, k) + (if name == k then [last] else []);
        assert MembersOf(gs, k) == if k == name then MembersOf(prev, k) + [last] else MembersOf(prev, k);
        assert MembersOf(prev, k) == WithName(init, platforms, k);
      }
    }
  }

  /** The grouping has one group per heading, each holding exactly the rows with
      that heading in their order, and accounts for every row once. */
  lemma {:induction false} GroupByPlatformSpec(rows: seq<Campaign>, platforms: seq<Naming.Platform>)
    ensures var gs := GroupByPlatform(rows, platforms);
      && UniqueNames(gs)
      && (forall k :: k in Names(gs) <==> k in Headings(rows, platforms))
      && (forall k :: MembersOf(gs, k) == WithName(rows, platforms, k))
      && Total(gs) == |rows|
  {
    GroupMembers(rows, platforms);
  }

  /** In a list of uniquely named groups, a group's members are the members looked up by its name. */
  lemma {:induction false} MembersOfUnique(gs: seq<Group>, i: int)
    requires UniqueNames(gs) && 0 <= i < |gs|
    ensures MembersOf(gs, gs[i].name) == gs[i].members
  {
    if i > 0 {
      assert gs[0].name != gs[i].name;
      assert UniqueNames(gs[1..]) by {
        forall a, b | 0 <= a < b < |gs[1..]| ensures gs[1..][a].name != gs[1..][b].name {
          assert gs[1..][a] == gs[a + 1] && gs[1..][b] == gs[b + 1];
        }
      }
      MembersOfUnique(gs[1..], i - 1);
    }
  }

  /** Every exported campaign lands in exactly one group, the one named after
      its platform, and the guide's total equals the number of exported rows. */
  lemma {:induction false} EachRowInOneGroup(rows: seq<Campaign>, platforms: seq<Naming.Platform>, c: Campaign)
    requires c in rows
    ensures var gs := GroupByPlatform(rows, platforms);
      && (exists i :: 0 <= i < |gs| && gs[i].name == GroupName(c, platforms) && c in gs[i].members)
      && (forall i :: 0 <= i < |gs| && c in gs[i].members ==> gs[i].name == GroupName(c, platforms))
      && Total(gs) == |rows|
  {
    var gs := GroupByPlatform(rows, platforms);
    GroupByPlatformSpec(rows, platforms);
    var k := GroupName(c, platforms);
    var j :| 0 <= j < |rows| && rows[j] == c;
    assert k in Names(gs);
    var i :| 0 <= i < |gs| && Names(gs)[i] == k;
    MembersOfUnique(gs, i);
    forall i' | 0 <= i' < |gs| && c in gs[i'].members
      ensures gs[i'].name == k
    {
      MembersOfUnique(gs, i');
    }
  }
}

=== FILE: naming.dfy ===
/** The campaign-identifier naming engine: derives an identifier from a campaign
    name under a platform's naming rules, and validates any identifier against
    the same rules. */
module Naming {
  import opened Common
  import opened Text

  /** An advertising platform as read from the platform catalog. Every naming
      rule is optional; an absent (or falsy) rule is not enforced. */
  datatype Platform = Platform(
    id: string,
    name: string,
    code: string,
    description: Option<string>,
    isActive: bool,
    namingConvention: Option<string>,
    maxLength: Option<int>,
    allowedCharacters: Option<string>,
    forbiddenCharacters: Option<string>)

  /** Hard failures; each carries what its user-facing message mentions. */
  datatype ValidationError = ExceedsMaxLength(limit: int) | ForbiddenCharacters

  /** Soft failures, reported but never blocking. */
  datatype ValidationWarning = UnsupportedCharacters

  datatype Validation = Validation(isValid: bool, errors: seq<ValidationError>, warnings: seq<ValidationWarning>)

  /** Generation applies any rule only when a naming convention is present. */
  predicate HasConvention(p: Platform) {
    TruthyString(p.namingConvention)
  }

  /** The convention asks for lower case (the keyword is matched case-insensitively). */
  predicate WantsLowercase(p: Platform) {
    HasConvention(p) && Contains(Lower(p.namingConvention.value), "lowercase")
  }

  /** The word separator the convention asks for; `hyphens` wins over
      `underscores`, and both keywords are matched case-sensitively. */
  function Separator(p: Platform): (r: Option<char>)
    ensures r.Some? ==> !IsWhitespace(r.value)
    ensures r.Some? <==> HasConvention(p) && (Contains(p.namingConvention.value, "hyphens") || Contains(p.namingConvention.value, "underscores"))
    ensures HasConvention(p) && Contains(p.namingConvention.value, "hyphens") ==> r == Some('-')
    ensures (HasConvention(p) && !Contains(p.namingConvention.value, "hyphens") && Contains(p.namingConvention.value, "underscores")) ==> r == Some('_')
  {
    if !HasConvention(p) then None
    else if Contains(p.namingConvention.value, "hyphens") then Some('-')
    else if Contains(p.namingConvention.value, "underscores") then Some('_')
    else None
  }

  /** The forbidden characters as a literal set; empty when the rule is falsy. */
  function ForbiddenSet(p: Platform): (r: set<char>)
    ensures !TruthyString(p.forbiddenCharacters) ==> r == {}
    ensures TruthyString(p.forbiddenCharacters) ==> forall c :: c in r <==> c in p.forbiddenCharacters.value
  {
    if TruthyString(p.forbiddenCharacters) then CharSet(p.forbiddenCharacters.value) else {}
  }

  /** The maximum length when the rule is truthy (present and non-zero). */
  predicate HasLimit(p: Platform) {
    TruthyInt(p.maxLength)
  }

  /** The longest identifier generation can produce under a limit `k`:
      `substring(0, k)` treats a negative `k` as zero. */
  function LimitBound(k: int): nat {
    if k < 0 then 0 else k
  }

  function Min(a: int, b: int): int {
    if a < b then a else b
  }

  /** Step 1: lower case when the convention asks for it. */
  function ApplyCase(s: string, p: Platform): (r: string)
    ensures |r| == |s|
    ensures WantsLowercase(p) ==> forall i :: 0 <= i < |s| ==> r[i] == LowerChar(s[i])
    ensures !WantsLowercase(p) ==> r == s
    ensures WantsLowercase(p) ==> forall c :: c in r ==> !IsUpperAscii(c)
  {
    if WantsLowercase(p) then Lower(s) else s
  }

  /** Step 2: whitespace runs to the convention's separator. */
  function ApplySeparator(s: string, p: Platform): (r: string)
    ensures Separator(p).Some? ==> forall c :: c in r ==> !IsWhitespace(c)
    ensures forall c :: c in r ==> c in s || Separator(p) == Some(c)
  {
    match Separator(p)
    case Some(sep) => ReplaceRuns(s, sep)
    case None => s
  }

  /** Step 3: strip every forbidden character. */
  function ApplyForbidden(s: string, p: Platform): (r: string)
    ensures forall c :: c in r ==> c in s && c !in ForbiddenSet(p)
  {
    if TruthyString(p.forbiddenCharacters) then Strip(s, ForbiddenSet(p)) else s
  }

  /** Step 4: truncate to the maximum length. */
  function ApplyLimit(s: string, p: Platform): (r: string)
    ensures r <= s
    ensures !HasLimit(p) ==> r == s
    ensures HasLimit(p) ==> |r| == Min(LimitBound(p.maxLength.value), |s|)
  {
    if HasLimit(p) then Prefix(s, p.maxLength.value) else s
  }

  /** `generateCampaignId`. Without a convention the name is returned unchanged,
      whatever other rules are set; with one, the four steps run in order. */
  function Generate(name: string, p: Platform): (r: string)
    ensures !HasConvention(p) ==> r == name
    ensures |r| <= |name|
    ensures HasConvention(p) && HasLimit(p) ==> |r| <= LimitBound(p.maxLength.value)
    ensures HasConvention(p) ==> forall c :: c in r ==> c !in ForbiddenSet(p)
    ensures Separator(p).Some? ==> forall c :: c in r ==> !IsWhitespace(c)
    ensures WantsLowercase(p) ==> forall c :: c in r ==> !IsUpperAscii(c)
  {
    if HasConvention(p) then
      ApplyLimit(ApplyForbidden(ApplySeparator(ApplyCase(name, p), p), p), p)
    else
      name
  }

  /** The length rule is violated: it is truthy and the identifier is longer. */
  predicate TooLong(id: string, p: Platform) {
    HasLimit(p) && |id| > p.maxLength.value
  }

  /** Some character of the identifier is forbidden. */
  predicate HasForbidden(id: string, p: Platform) {
    exists i | 0 <= i < |id| :: id[i] in ForbiddenSet(p)
  }

  /** The identifier is not a non-empty string over the allowed characters
      (the pattern is anchored and uses `+`, so the empty string fails it). */
  predicate OutsideAllowed(id: string, p: Platform) {
    TruthyString(p.allowedCharacters)
    && (id == "" || exists i | 0 <= i < |id| :: id[i] !in p.allowedCharacters.value)
  }

  /** `validateCampaignId`. Independent of the naming convention: checks length,
      then forbidden characters (errors), then allowed characters (warning). */
  function Validate(id: string, p: Platform): (v: Validation)
    ensures v.isValid <==> v.errors == []
    ensures |v.errors| <= 2 && |v.warnings| <= 1
    ensures |v.errors| == (if TooLong(id, p) then 1 else 0) + (if HasForbidden(id, p) then 1 else 0)
    ensures (exists k :: ExceedsMaxLength(k) in v.errors) <==> TooLong(id, p)
    ensures TooLong(id, p) ==> v.errors[0] == ExceedsMaxLength(p.maxLength.value)
    ensures ForbiddenCharacters in v.errors <==> HasForbidden(id, p)
    ensures ForbiddenCharacters in v.errors ==> v.errors[|v.errors| - 1] == ForbiddenCharacters
    ensures v.warnings != [] <==> OutsideAllowed(id, p)
    ensures v.warnings != [] ==> v.warnings == [UnsupportedCharacters]
  {
    var lengthErrors := if TooLong(id, p) then [ExceedsMaxLength(p.maxLength.value)] else [];
    var forbiddenErrors := if TruthyString(p.forbiddenCharacters) && HasForbidden(id, p) then [ForbiddenCharacters] else [];
    var warnings := if OutsideAllowed(id, p) then [UnsupportedCharacters] else [];
    Validation(lengthErrors + forbiddenErrors == [], lengthErrors + forbiddenErrors, warnings)
  }

  /** A maximum length of 0, or none, disables the length check. */
  lemma ZeroLimitDisablesLengthCheck(id: string, p: Platform)
    requires p.maxLength == None || p.maxLength == Some(0)
    ensures forall e :: e in Validate(id, p).errors ==> e == ForbiddenCharacters
  {
  }

  /** Validation never consults the naming convention. */
  lemma ValidateIgnoresConvention(id: string, p: Platform, convention: Option<string>)
    ensures Validate(id, p.(namingConvention := convention)) == Validate(id, p)
  {
  }

  /** Warnings never affect validity: changing the allowed set changes neither
      the verdict nor the errors. */
  lemma WarningsNeverAffectValidity(id: string, p: Platform, allowed: Option<string>)
    ensures Validate(id, p.(allowedCharacters := allowed)).isValid == Validate(id, p).isValid
    ensures Validate(id, p.(allowedCharacters := allowed)).errors == Validate(id, p).errors
  {
  }

  /** A platform with no rule at all: identity generation, always valid, no warning. */
  lemma EmptyRuleBaseline(name: string, p: Platform)
    requires p.namingConvention == None && p.maxLength == None
    requires p.allowedCharacters == None && p.forbiddenCharacters == None
    ensures Generate(name, p) == name
    ensures Validate(name, p) == Validation(true, [], [])
  {
  }

  /** Soundness: with a convention and a non-negative limit, a generated identifier
      passes validation against the same platform. */
  lemma GeneratedPassesValidation(name: string, p: Platform)
    requires HasConvention(p)
    requires p.maxLength.None? || p.maxLength.value >= 0
    ensures Validate(Generate(name, p), p).isValid
    ensures Validate(Generate(name, p), p).errors == []
  {
  }

  /** Without a convention the name passes through untruncated, so a name over
      the limit is reported by validation. */
  lemma NoConventionReportsLength(name: string, p: Platform, k: int)
    requires !HasConvention(p)
    requires p.maxLength == Some(k) && k > 0 && |name| > k
    ensures Generate(name, p) == name
    ensures Validate(Generate(name, p), p).errors[0] == ExceedsMaxLength(k)
    ensures !Validate(Generate(name, p), p).isValid
  {
  }

  /** A negative limit truncates to the empty string, yet validation still reports
      the empty identifier as too long. */
  lemma NegativeLimitRejectsGenerated(name: string, p: Platform, k: int)
    requires HasConvention(p)
    requires p.maxLength == Some(k) && k < 0
    ensures Generate(name, p) == ""
    ensures Validate(Generate(name, p), p).errors[0] == ExceedsMaxLength(k)
  {
  }

  lemma {:induction false} LowerIdentity(s: string)
    requires forall i :: 0 <= i < |s| ==> !IsUpperAscii(s[i])
    ensures Lower(s) == s
  {
    assert forall i :: 0 <= i < |s| ==> Lower(s)[i] == s[i];
  }

  /** Generating from an already generated identifier changes nothing. */
  lemma GenerateIdempotent(name: string, p: Platform)
    ensures Generate(Generate(name, p), p) == Generate(name, p)
  {
    var r := Generate(name, p);
    if HasConvention(p) {
      var s1 := ApplyCase(r, p);
      if WantsLowercase(p) {
        LowerIdentity(r);
      }
      assert s1 == r;
      var s2 := ApplySeparator(s1, p);
      if Separator(p).Some? {
        ReplaceRunsIdentity(r, Separator(p).value);
      }
      assert s2 == r;
      var s3 := ApplyForbidden(s2, p);
      if TruthyString(p.forbiddenCharacters) {
        StripIdentity(r, ForbiddenSet(p));
      }
      assert s3 == r;
    }
  }

  /** The convention "lowercase hyphens" asks for lower case and hyphens. */
  lemma {:induction false} LowercaseHyphensConvention(p: Platform)
    requires p.namingConvention == Some("lowercase hyphens")
    ensures WantsLowercase(p) && Separator(p) == Some('-')
  {
    LowerIdentity("lowercase hyphens");
    assert OccursAt("lowercase hyphens", "lowercase", 0);
    assert OccursAt("lowercase hyphens", "hyphens", 10);
  }

  lemma SummerSaleHyphenated()
    ensures ReplaceRuns("summer sale!!", '-') == "summer-sale!!"
  {
    ReplaceRunsJoinsWords("summer", " ", "sale!!", '-');
    assert "summer" + " " + "sale!!" == "summer sale!!";
    assert "summer" + ['-'] + "sale!!" == "summer-sale!!";
  }

  lemma SummerSaleStripped()
    ensures Strip("summer-sale!!", {'!'}) == "summer-sale"
  {
    StripTail("summer-sale", "!!", {'!'});
    assert "summer-sale" + "!!" == "summer-sale!!";
  }

  /** A worked pipeline example: lower case, then hyphens, then the
      forbidden `!` stripped, then truncation to 10 characters. */
  lemma {:induction false} SummerSaleExample(name: string, p: Platform)
    requires name == "Summer Sale!!"
    requires p.namingConvention == Some("lowercase hyphens")
    requires p.forbiddenCharacters == Some("!")
    requires p.maxLength == Some(10)
    ensures Generate(name, p) == "summer-sal"
  {
    LowercaseHyphensConvention(p);
    var lowered := ApplyCase(name, p);
    assert lowered == "summer sale!!";
    var separated := ApplySeparator(lowered, p);
    assert separated == "summer-sale!!" by {
      SummerSaleHyphenated();
    }
    var stripped := ApplyForbidden(separated, p);
    assert stripped == "summer-sale" by {
      assert ForbiddenSet(p) == {'!'};
      SummerSaleStripped();
    }
    assert Generate(name, p) == ApplyLimit(stripped, p);
  }

  /** A `.` in the forbidden set removes literal periods only: it is not a
      wildcard, so every other character of the name survives. */
  lemma {:induction false} DotIsLiteral(name: string, p: Platform)
    requires HasConvention(p) && !WantsLowercase(p) && Separator(p) == None && !HasLimit(p)
    requires p.forbiddenCharacters == Some(".")
    ensures forall c :: c in Generate(name, p) <==> c in name && c != '.'
  {
  }

  /** With a convention, a truthy limit `k` keeps exactly the first
      min(max(k, 0), n) characters of the identifier generated without a
      limit, where n is that identifier's length; without one it is that
      identifier. */
  lemma GenerateTruncates(name: string, p: Platform)
    requires HasConvention(p)
    ensures var g := Generate(name, p.(maxLength := None));
      && (HasLimit(p) ==> Generate(name, p) == g[..Min(LimitBound(p.maxLength.value), |g|)])
      && (!HasLimit(p) ==> Generate(name, p) == g)
  {
    var q := p.(maxLength := None);
    assert ApplyCase(name, q) == ApplyCase(name, p);
    assert Separator(q) == Separator(p);
    assert ForbiddenSet(q) == ForbiddenSet(p);
    assert ApplySeparator(ApplyCase(name, p), q) == ApplySeparator(ApplyCase(name, p), p);
  }

  /** A separator never arises from lower-casing. */
  lemma CaseKeepsSeparatorOut(name: string, p: Platform, sep: char)
    requires sep == '-' || sep == '_'
    requires forall i :: 0 <= i < |name| ==> name[i] != sep
    ensures forall i :: 0 <= i < |ApplyCase(name, p)| ==> ApplyCase(name, p)[i] != sep
  {
  }

  /** Generation keeps the visible characters of the (cased) name in order: with
      a separator convention and no limit, dropping the separators from the
      identifier gives the cased name without its whitespace and forbidden
      characters, provided the name does not already use the separator. */
  lemma {:induction false} GenerateKeepsVisible(name: string, p: Platform, sep: char)
    requires HasConvention(p) && !HasLimit(p)
    requires Separator(p) == Some(sep)
    requires forall i :: 0 <= i < |name| ==> name[i] != sep
    ensures Strip(Generate(name, p), {sep}) == Strip(Visible(ApplyCase(name, p)), ForbiddenSet(p))
  {
    var cased := ApplyCase(name, p);
    var replaced := ReplaceRuns(cased, sep);
    var forbidden := ForbiddenSet(p);
    assert sep == '-' || sep == '_';
    CaseKeepsSeparatorOut(name, p, sep);
    assert Strip(replaced, {sep}) == Visible(cased) by {
      ReplaceRunsKeepsVisible(cased, sep);
    }
    if TruthyString(p.forbiddenCharacters) {
      assert Generate(name, p) == Strip(replaced, forbidden);
      StripUnion(replaced, forbidden, {sep});
      StripUnion(replaced, {sep}, forbidden);
      assert forbidden + {sep} == {sep} + forbidden;
    } else {
      assert Generate(name, p) == replaced;
      StripIdentity(Visible(cased), forbidden);
    }
  }
}

=== FILE: search.dfy ===
/** The pagination arithmetic of campaign search. The query itself runs in the
    hosted store; only the offset, the requested row range and the page count
    are computed locally. */
module Search {
  import opened Common

  /** The inclusive row range passed to the store's `range(from, to)`. */
  datatype RowRange = RowRange(first: int, last: int)

  /** The pagination block of a search response. */
  datatype Pagination = Pagination(page: int, limit: int, total: nat, totalPages: nat)

  /** `Math.ceil(total / limit)` for a positive limit. */
  function CeilDiv(total: nat, limit: int): (n: nat)
    requires limit > 0
    ensures n * limit >= total
    ensures n > 0 ==> (n - 1) * limit < total
    ensures total == 0 <==> n == 0
  {
    var q := (total + limit - 1) / limit;
    var r := (total + limit - 1) % limit;
    assert q * limit + r == total + limit - 1;
    assert (q - 1) * limit == q * limit - limit;
    q
  }

  /** No smaller page count covers the total. */
  lemma CeilDivIsLeast(total: nat, limit: int, n: nat)
    requires limit > 0
    requires n * limit >= total
    ensures CeilDiv(total, limit) <= n
  {
  }

  /** The rows requested for a page: `offset = (page - 1) * limit` up to
      `offset + limit - 1`, inclusive. */
  function Requested(page: int, limit: int): (r: RowRange)
    requires limit > 0
    ensures r.last - r.first + 1 == limit
    ensures page == 1 ==> r.first == 0
  {
    var offset := (page - 1) * limit;
    RowRange(offset, offset + limit - 1)
  }

  /** Consecutive pages request adjacent, non-overlapping ranges. */
  lemma PagesAreAdjacent(page: int, limit: int)
    requires limit > 0
    ensures Requested(page + 1, limit).first == Requested(page, limit).last + 1
  {
  }

  /** Every row index belongs to the range of page `row / limit + 1`, and that
      page exists whenever the row does. */
  lemma RowOnItsPage(row: nat, total: nat, limit: int)
    requires limit > 0
    ensures Requested(row / limit + 1, limit).first <= row <= Requested(row / limit + 1, limit).last
    ensures row < total ==> row / limit + 1 <= CeilDiv(total, limit)
  {
    var q := row / limit;
    assert q * limit + row % limit == row;
    assert Requested(q + 1, limit) == RowRange(q * limit, q * limit + limit - 1);
    if row < total {
      var n := CeilDiv(total, limit);
      if q + 1 > n {
        MulMonotone(n, q, limit);
        assert false;
      }
    }
  }

  /** Multiplying by a positive limit keeps the order. */
  lemma MulMonotone(a: nat, b: nat, limit: int)
    requires limit > 0 && a <= b
    ensures a * limit <= b * limit
  {
    assert b * limit == a * limit + (b - a) * limit;
  }

  /** The pagination block of a search for `page` with a positive `limit`; a
      missing row count counts as zero. */
  function Paginate(page: int, limit: int, count: Option<nat>): (p: Pagination)
    requires limit > 0
    ensures p.page == page && p.limit == limit
    ensures p.total == ValueOr(count, 0)
    ensures p.totalPages * limit >= p.total
    ensures p.totalPages > 0 ==> (p.totalPages - 1) * limit < p.total
    ensures p.total == 0 <==> p.totalPages == 0
  {
    var total := ValueOr(count, 0);
    Pagination(page, limit, total, CeilDiv(total, limit))
  }
}

=== FILE: text.dfy ===
/** Character-level helpers that stand in for the JavaScript string built-ins the
    naming engine and the export filter rely on. */
module Text {

  /** JavaScript's `\s`: the WhiteSpace and LineTerminator code points. In ASCII
      these are the space and `\t`, `\n`, `\v`, `\f`, `\r`. */
  predicate IsWhitespace(c: char) {
    if c < '\U{0080}' then c == ' ' || '\t' <= c <= '\r'
    else c in WideWhitespace
  }

  /** The whitespace code points beyond ASCII. */
  const WideWhitespace: set<char> := {
    '\U{00A0}', '\U{1680}',
    '\U{2000}', '\U{2001}', '\U{2002}', '\U{2003}', '\U{2004}', '\U{2005}',
    '\U{2006}', '\U{2007}', '\U{2008}', '\U{2009}', '\U{200A}',
    '\U{2028}', '\U{2029}', '\U{202F}', '\U{205F}', '\U{3000}', '\U{FEFF}'
  }

  predicate IsUpperAscii(c: char) {
    'A' <= c <= 'Z'
  }

  /** ASCII case mapping: `A`..`Z` become `a`..`z`, everything else is kept. */
  function LowerChar(c: char): (r: char)
    ensures !IsUpperAscii(r)
    ensures !IsUpperAscii(c) ==> r == c
    ensures IsUpperAscii(c) ==> r as int == c as int + 32
  {
    if IsUpperAscii(c) then (c as int + 32) as char else c
  }

  /** `String.prototype.toLowerCase`, restricted to ASCII letters. */
  function Lower(s: string): (r: string)
    ensures |r| == |s|
    ensures forall i :: 0 <= i < |s| ==> r[i] == LowerChar(s[i])
  {
    seq(|s|, i requires 0 <= i < |s| => LowerChar(s[i]))
  }

  lemma LowerIdempotent(s: string)
    ensures Lower(Lower(s)) == Lower(s)
  {
  }

  /** `s.includes(sub)`: `sub` occurs at some position of `s`. */
  predicate Contains(s: string, sub: string) {
    exists i | 0 <= i <= |s| :: OccursAt(s, sub, i)
  }

  /** `sub` occurs in `s` starting at index `i`. */
  predicate OccursAt(s: string, sub: string, i: int) {
    0 <= i && i + |sub| <= |s| && s[i..i + |sub|] == sub
  }

  lemma ContainsEmpty(s: string)
    ensures Contains(s, "")
  {
    assert OccursAt(s, "", 0);
  }

  /** Characters of a string, as a literal character set. */
  function CharSet(s: string): (r: set<char>)
    ensures forall c :: c in r <==> c in s
  {
    set c | c in s
  }

  /** `s.substring(0, k)`: the first `k` characters, where a negative `k` counts
      as zero and a `k` beyond the end takes the whole string. */
  function Prefix(s: string, k: int): (r: string)
    ensures |r| <= |s|
    ensures k >= 0 ==> |r| <= k
    ensures k < 0 ==> r == ""
    ensures 0 <= k <= |s| ==> |r| == k
    ensures k >= |s| ==> r == s
    ensures r <= s
    ensures forall c :: c in r ==> c in s
  {
    if k < 0 then "" else if k < |s| then s[..k] else s
  }

  /** Removes every character of `forbidden` from `s`, keeping the rest in order. */
  function Strip(s: string, forbidden: set<char>): (r: string)
    ensures |r| <= |s|
    ensures forall c :: c in r <==> c in s && c !in forbidden
  {
    if |s| == 0 then ""
    else if s[0] in forbidden then Strip(s[1..], forbidden)
    else [s[0]] + Strip(s[1..], forbidden)
  }

  lemma {:induction false} StripIdentity(s: string, forbidden: set<char>)
    requires forall c :: c in s ==> c !in forbidden
    ensures Strip(s, forbidden) == s
  {
    if |s| > 0 {
      assert s[0] in s;
      forall c | c in s[1..] ensures c !in forbidden {
        assert c in s;
      }
      StripIdentity(s[1..], forbidden);
      assert s == [s[0]] + s[1..];
    }
  }

  lemma StripIdempotent(s: string, forbidden: set<char>)
    ensures Strip(Strip(s, forbidden), forbidden) == Strip(s, forbidden)
  {
    StripIdentity(Strip(s, forbidden), forbidden);
  }

  /** Stripping one set after another strips their union. */
  lemma {:induction false} StripUnion(s: string, first: set<char>, second: set<char>)
    ensures Strip(Strip(s, first), second) == Strip(s, first + second)
  {
    if |s| > 0 {
      StripUnion(s[1..], first, second);
      if s[0] !in first {
        var t := [s[0]] + Strip(s[1..], first);
        assert t[0] == s[0] && t[1..] == Strip(s[1..], first);
      }
    }
  }

  /** Stripping distributes over concatenation. */
  lemma {:induction false} StripAppend(a: string, b: string, forbidden: set<char>)
    ensures Strip(a + b, forbidden) == Strip(a, forbidden) + Strip(b, forbidden)
  {
    if |a| > 0 {
      StripAppend(a[1..], b, forbidden);
      assert (a + b)[1..] == a[1..] + b;
    } else {
      assert a + b == b;
    }
  }

  /** Stripping removes a tail made only of forbidden characters and keeps a
      head that has none. */
  lemma {:induction false} StripTail(a: string, b: string, forbidden: set<char>)
    requires forall c :: c in a ==> c !in forbidden
    requires forall c :: c in b ==> c in forbidden
    ensures Strip(a + b, forbidden) == a
    decreases |b|
  {
    if |b| == 0 {
      assert a + b == a;
      StripIdentity(a, forbidden);
    } else {
      StripAppend(a, b, forbidden);
      StripIdentity(a, forbidden);
      assert b[0] in b;
      forall c | c in b[1..] ensures c in forbidden {
        assert c in b;
      }
      StripTail([], b[1..], forbidden);
      assert [] + b[1..] == b[1..];
    }
  }

  /** The leading run of whitespace removed. */
  function DropWhitespace(s: string): (r: string)
    ensures |r| <= |s|
    ensures |s| > 0 && IsWhitespace(s[0]) ==> |r| < |s|
    ensures |r| > 0 ==> !IsWhitespace(r[0])
    ensures s[|s| - |r|..] == r
  {
    if |s| > 0 && IsWhitespace(s[0]) then DropWhitespace(s[1..]) else s
  }

  /** `s.replace(/\s+/g, sep)`: every maximal run of whitespace becomes one `sep`. */
  function ReplaceRuns(s: string, sep: char): (r: string)
    requires !IsWhitespace(sep)
    ensures |r| <= |s|
    ensures forall i :: 0 <= i < |r| ==> !IsWhitespace(r[i])
    ensures forall c :: c in r ==> c == sep || c in s
    decreases |s|
  {
    if |s| == 0 then ""
    else if IsWhitespace(s[0]) then [sep] + ReplaceRuns(DropWhitespace(s), sep)
    else [s[0]] + ReplaceRuns(s[1..], sep)
  }

  /** A string without whitespace is left unchanged by run replacement. */
  lemma {:induction false} ReplaceRunsIdentity(s: string, sep: char)
    requires !IsWhitespace(sep)
    requires forall i :: 0 <= i < |s| ==> !IsWhitespace(s[i])
    ensures ReplaceRuns(s, sep) == s
  {
    if |s| > 0 {
      ReplaceRunsIdentity(s[1..], sep);
      assert s == [s[0]] + s[1..];
    }
  }

  /** A whitespace-free prefix passes through run replacement unchanged. */
  lemma {:induction false} ReplaceRunsAppend(a: string, b: string, sep: char)
    requires !IsWhitespace(sep)
    requires forall i :: 0 <= i < |a| ==> !IsWhitespace(a[i])
    ensures ReplaceRuns(a + b, sep) == a + ReplaceRuns(b, sep)
  {
    if |a| > 0 {
      var ab := a + b;
      assert ReplaceRuns(ab, sep) == [a[0]] + ReplaceRuns(a[1..] + b, sep) by {
        assert ab[0] == a[0] && !IsWhitespace(ab[0]);
        assert ab[1..] == a[1..] + b;
      }
      assert ReplaceRuns(a[1..] + b, sep) == a[1..] + ReplaceRuns(b, sep) by {
        ReplaceRunsAppend(a[1..], b, sep);
      }
      assert a == [a[0]] + a[1..];
    } else {
      assert a + b == b;
    }
  }

  /** A non-empty block of whitespace is dropped whole when the rest does not
      start with whitespace. */
  lemma {:induction false} DropWhitespaceBlock(ws: string, b: string)
    requires forall i :: 0 <= i < |ws| ==> IsWhitespace(ws[i])
    requires |b| > 0 ==> !IsWhitespace(b[0])
    ensures DropWhitespace(ws + b) == b
    decreases |ws|
  {
    if |ws| == 0 {
      assert ws + b == b;
    } else {
      var t := ws + b;
      assert t[0] == ws[0] && IsWhitespace(t[0]);
      assert t[1..] == ws[1..] + b;
      DropWhitespaceBlock(ws[1..], b);
    }
  }

  /** A whole whitespace run, however long, becomes exactly one `sep`: after a
      whitespace-free prefix `a`, the run `ws` turns into a single separator and
      replacement continues on the rest `b`, which starts outside the run. */
  lemma {:induction false} ReplaceRunsCollapse(a: string, ws: string, b: string, sep: char)
    requires !IsWhitespace(sep)
    requires forall i :: 0 <= i < |a| ==> !IsWhitespace(a[i])
    requires |ws| > 0 && forall i :: 0 <= i < |ws| ==> IsWhitespace(ws[i])
    requires |b| > 0 ==> !IsWhitespace(b[0])
    ensures ReplaceRuns(a + ws + b, sep) == a + [sep] + ReplaceRuns(b, sep)
  {
    var t := ws + b;
    assert ReplaceRuns(a + t, sep) == a + ReplaceRuns(t, sep) by {
      ReplaceRunsAppend(a, t, sep);
    }
    assert ReplaceRuns(t, sep) == [sep] + ReplaceRuns(b, sep) by {
      assert t[0] == ws[0];
      DropWhitespaceBlock(ws, b);
    }
    assert a + ws + b == a + t;
    assert a + [sep] + ReplaceRuns(b, sep) == a + ([sep] + ReplaceRuns(b, sep));
  }

  /** Two words separated by any non-empty whitespace run are joined by one `sep`. */
  lemma ReplaceRunsJoinsWords(a: string, ws: string, b: string, sep: char)
    requires !IsWhitespace(sep)
    requires forall i :: 0 <= i < |a| ==> !IsWhitespace(a[i])
    requires |ws| > 0 && forall i :: 0 <= i < |ws| ==> IsWhitespace(ws[i])
    requires forall i :: 0 <= i < |b| ==> !IsWhitespace(b[i])
    ensures ReplaceRuns(a + ws + b, sep) == a + [sep] + b
  {
    ReplaceRunsCollapse(a, ws, b, sep);
    ReplaceRunsIdentity(b, sep);
  }

  lemma ReplaceRunsIdempotent(s: string, sep: char)
    requires !IsWhitespace(sep)
    ensures ReplaceRuns(ReplaceRuns(s, sep), sep) == ReplaceRuns(s, sep)
  {
    ReplaceRunsIdentity(ReplaceRuns(s, sep), sep);
  }

  /** The non-whitespace characters of `s`, in order. */
  function Visible(s: string): (r: string)
    ensures forall i :: 0 <= i < |r| ==> !IsWhitespace(r[i])
  {
    if |s| == 0 then ""
    else if IsWhitespace(s[0]) then Visible(s[1..])
    else [s[0]] + Visible(s[1..])
  }

  lemma {:induction false} VisibleOfDropped(s: string)
    ensures Visible(DropWhitespace(s)) == Visible(s)
  {
    if |s| > 0 && IsWhitespace(s[0]) {
      VisibleOfDropped(s[1..]);
    }
  }

  /** Run replacement keeps every visible character of the input, in order:
      removing the separators from the output gives back the input with its
      whitespace removed, provided the input does not already use `sep`. */
  lemma {:induction false} ReplaceRunsKeepsVisible(s: string, sep: char)
    requires !IsWhitespace(sep)
    requires forall i :: 0 <= i < |s| ==> s[i] != sep
    ensures Strip(ReplaceRuns(s, sep), {sep}) == Visible(s)
    decreases |s|
  {
    if |s| > 0 {
      if IsWhitespace(s[0]) {
        var d := DropWhitespace(s);
        forall i | 0 <= i < |d| ensures d[i] != sep {
          assert d[i] == s[|s| - |d| + i];
        }
        ReplaceRunsKeepsVisible(d, sep);
        VisibleOfDropped(s);
        assert ReplaceRuns(s, sep) == [sep] + ReplaceRuns(d, sep);
        assert ([sep] + ReplaceRuns(d, sep))[1..] == ReplaceRuns(d, sep);
      } else {
        ReplaceRunsKeepsVisible(s[1..], sep);
        assert ([s[0]] + ReplaceRuns(s[1..], sep))[1..] == ReplaceRuns(s[1..], sep);
      }
    }
  }
}

=== FILE: wizard.dfy ===
/** The campaign creation wizard: four gated steps (platform, basic info,
    taxonomy, review) over an accumulating draft, with the campaign identifier
    recomputed from the draft's name and the selected platform. */
module Wizard {
  import opened Common
  import opened Naming
  import Campaigns

  datatype WizardStep = WizardStep(id: string, title: string, description: string, isCompleted: bool, isActive: bool)

  /** The fixed step list: only the first step is active and none is completed. */
  const InitialSteps: seq<WizardStep> := [
    WizardStep("platform", "Platform", "Select advertising platform", false, true),
    WizardStep("basic", "Basic Info", "Campaign name and details", false, false),
    WizardStep("taxonomy", "Taxonomy", "Categorize your campaign", false, false),
    WizardStep("review", "Review", "Review and generate ID", false, false)
  ]

  /** The index of the last (review) step. */
  const LastStep: nat := 3

  /** The form draft. The budget (a floating-point number) is not modelled. */
  datatype Draft = Draft(
    name: string,
    platformId: string,
    startDate: string,
    endDate: string,
    objective: string,
    targetAudience: string,
    notes: string,
    taxonomy: map<string, string>)

  const EmptyDraft: Draft := Draft("", "", "", "", "", "", "", map[])

  /** A taxonomy category from the catalog; only its name and flag matter here. */
  datatype TaxonomyCategory = TaxonomyCategory(id: string, name: string, isRequired: bool)

  /** The cached identifier with its validation. */
  datatype GeneratedId = GeneratedId(originalName: string, generatedId: string, platform: string, validation: Validation)

  datatype State = State(
    current: nat,
    steps: seq<WizardStep>,
    draft: Draft,
    platform: Option<Platform>,
    generated: Option<GeneratedId>,
    categories: seq<TaxonomyCategory>)

  /** The wizard as first mounted, before any reference data has loaded. */
  const Initial: State := State(0, InitialSteps, EmptyDraft, None, None, [])

  /** The identifier derived for a name on a platform, with its validation. */
  function Identify(name: string, p: Platform): (g: GeneratedId)
    ensures g.originalName == name && g.platform == p.name
    ensures g.generatedId == Generate(name, p)
    ensures g.validation == Validate(g.generatedId, p)
  {
    var id := Generate(name, p);
    GeneratedId(name, id, p.name, Validate(id, p))
  }

  /** The recomputation effect: with a platform selected and a non-empty name
      the identifier is regenerated; otherwise the previous one is kept. */
  function Recompute(w: State): (r: State)
    ensures r.current == w.current && r.steps == w.steps && r.draft == w.draft
    ensures r.platform == w.platform && r.categories == w.categories
    ensures w.platform.Some? && w.draft.name != "" ==> r.generated == Some(Identify(w.draft.name, w.platform.value))
    ensures w.platform.None? || w.draft.name == "" ==> r.generated == w.generated
  {
    if w.platform.Some? && w.draft.name != "" then
      w.(generated := Some(Identify(w.draft.name, w.platform.value)))
    else
      w
  }

  /** The cached identifier agrees with the name and platform it depends on. */
  predicate Fresh(w: State) {
    w.platform.Some? && w.draft.name != "" ==> w.generated == Some(Identify(w.draft.name, w.platform.value))
  }

  /** A value has been chosen for the category. */
  predicate Filled(taxonomy: map<string, string>, category: string) {
    category in taxonomy && taxonomy[category] != ""
  }

  /** The gate of the current step, which must hold to advance past it. */
  predicate Gate(w: State): (ok: bool)
    ensures ok ==> w.current <= LastStep
    ensures w.current == 0 ==> (ok <==> w.draft.platformId != "")
    ensures w.current == 1 ==> (ok <==> w.draft.name != "" && w.draft.objective != "")
    ensures w.current == 2 ==> (ok <==> forall c :: c in w.categories && c.isRequired ==> Filled(w.draft.taxonomy, c.name))
    ensures w.current == 3 ==> (ok <==> w.generated.Some? && w.generated.value.validation.isValid)
  {
    if w.current == 0 then w.draft.platformId != ""
    else if w.current == 1 then w.draft.name != "" && w.draft.objective != ""
    else if w.current == 2 then
      forall i | 0 <= i < |w.categories| && w.categories[i].isRequired :: Filled(w.draft.taxonomy, w.categories[i].name)
    else if w.current == 3 then w.generated.Some? && w.generated.value.validation.isValid
    else false
  }

  /** `updateStepCompletion`: sets the completed flag of one step only. */
  function UpdateStepCompletion(steps: seq<WizardStep>, index: int, isCompleted: bool): (r: seq<WizardStep>)
    ensures |r| == |steps|
    ensures 0 <= index < |steps| ==> r[index] == steps[index].(isCompleted := isCompleted)
    ensures forall i :: 0 <= i < |steps| && i != index ==> r[i] == steps[i]
  {
    seq(|steps|, i requires 0 <= i < |steps| => if i == index then steps[i].(isCompleted := isCompleted) else steps[i])
  }

  /** Makes `index` the only active step, leaving every completed flag alone. */
  function Activate(steps: seq<WizardStep>, index: int): (r: seq<WizardStep>)
    ensures |r| == |steps|
    ensures forall i :: 0 <= i < |steps| ==> r[i] == steps[i].(isActive := i == index)
  {
    seq(|steps|, i requires 0 <= i < |steps| => steps[i].(isActive := i == index))
  }

  /** `handleNext`. */
  function Next(w: State): (r: State)
    ensures !Gate(w) ==> r == w
    ensures r.draft == w.draft && r.platform == w.platform && r.generated == w.generated && r.categories == w.categories
    ensures |r.steps| == |w.steps|
    ensures Gate(w) && w.current < |w.steps| ==> r.steps[w.current].isCompleted
    ensures Gate(w) && w.current + 1 < |w.steps| ==> r.current == w.current + 1
    ensures Gate(w) && w.current + 1 < |w.steps| ==> forall i :: 0 <= i < |r.steps| ==> (r.steps[i].isActive <==> i == w.current + 1)
    ensures w.current + 1 >= |w.steps| ==> r.current == w.current
    ensures forall i :: 0 <= i < |w.steps| && w.steps[i].isCompleted ==> r.steps[i].isCompleted
    ensures forall i :: 0 <= i < |w.steps| && i != w.current ==> r.steps[i].isCompleted == w.steps[i].isCompleted
    ensures forall i :: 0 <= i < |w.steps| ==>
      r.steps[i].id == w.steps[i].id && r.steps[i].title == w.steps[i].title && r.steps[i].description == w.steps[i].description
  {
    if !Gate(w) then w
    else
      var completed := UpdateStepCompletion(w.steps, w.current, true);
      if w.current < |w.steps| - 1 then
        w.(current := w.current + 1, steps := Activate(completed, w.current + 1))
      else
        w.(steps := completed)
  }

  /** `handlePrevious`. */
  function Previous(w: State): (r: State)
    ensures w.current == 0 ==> r == w
    ensures w.current > 0 ==> r.current == w.current - 1
    ensures w.current > 0 ==> forall i :: 0 <= i < |r.steps| ==> (r.steps[i].isActive <==> i == w.current - 1)
    ensures |r.steps| == |w.steps|
    ensures forall i :: 0 <= i < |w.steps| ==> r.steps[i].isCompleted == w.steps[i].isCompleted
    ensures forall i :: 0 <= i < |w.steps| ==>
      r.steps[i].id == w.steps[i].id && r.steps[i].title == w.steps[i].title && r.steps[i].description == w.steps[i].description
    ensures r.draft == w.draft && r.platform == w.platform && r.generated == w.generated && r.categories == w.categories
  {
    if w.current > 0 then w.(current := w.current - 1, steps := Activate(w.steps, w.current - 1)) else w
  }

  /** `handlePlatformSelect`, followed by the recomputation effect. */
  function SelectPlatform(w: State, p: Platform): (r: State)
    ensures r.platform == Some(p)
    ensures r.draft == w.draft.(platformId := p.id)
    ensures r.current == w.current && |r.steps| == |w.steps| && r.categories == w.categories
    ensures |w.steps| > 0 ==> r.steps[0] == w.steps[0].(isCompleted := true)
    ensures forall i :: 0 < i < |w.steps| ==> r.steps[i] == w.steps[i]
    ensures w.draft.name != "" ==> r.generated == Some(Identify(w.draft.name, p))
    ensures w.draft.name == "" ==> r.generated == w.generated
  {
    Recompute(w.(platform := Some(p), draft := w.draft.(platformId := p.id), steps := UpdateStepCompletion(w.steps, 0, true)))
  }

  /** `handleTaxonomyChange`, followed by the recomputation effect. */
  function ChangeTaxonomy(w: State, category: string, value: string): (r: State)
    ensures r.draft.taxonomy == w.draft.taxonomy[category := value]
    ensures r.draft.(taxonomy := w.draft.taxonomy) == w.draft
    ensures forall k :: k != category ==> (k in r.draft.taxonomy <==> k in w.draft.taxonomy)
    ensures forall k :: k != category && k in w.draft.taxonomy ==> r.draft.taxonomy[k] == w.draft.taxonomy[k]
    ensures r.current == w.current && r.steps == w.steps && r.platform == w.platform && r.categories == w.categories
  {
    Recompute(w.(draft := w.draft.(taxonomy := w.draft.taxonomy[category := value])))
  }

  /** The text fields of the basic-info step. */
  datatype BasicField = Name | Objective | TargetAudience | StartDate | EndDate | Notes

  /** The draft with one basic-info field replaced. */
  function SetField(d: Draft, f: BasicField, value: string): Draft {
    match f
    case Name => d.(name := value)
    case Objective => d.(objective := value)
    case TargetAudience => d.(targetAudience := value)
    case StartDate => d.(startDate := value)
    case EndDate => d.(endDate := value)
    case Notes => d.(notes := value)
  }

  /** An edit on the basic-info step; only a name edit re-runs the effect. */
  function EditField(w: State, f: BasicField, value: string): (r: State)
    ensures r.draft == SetField(w.draft, f, value)
    ensures r.draft.platformId == w.draft.platformId && r.draft.taxonomy == w.draft.taxonomy
    ensures f != Name ==> r.draft.name == w.draft.name && r.generated == w.generated
    ensures f != Objective ==> r.draft.objective == w.draft.objective
    ensures r.current == w.current && r.steps == w.steps && r.platform == w.platform && r.categories == w.categories
  {
    var edited := w.(draft := SetField(w.draft, f, value));
    if f == Name then Recompute(edited) else edited
  }

  /** `resetWizard`: back to the first step with an empty draft; the loaded
      reference data stays. */
  function Reset(w: State): (r: State)
    ensures r.current == 0 && r.steps == InitialSteps && r.draft == EmptyDraft
    ensures r.platform == None && r.generated == None
    ensures r.categories == w.categories
  {
    State(0, InitialSteps, EmptyDraft, None, None, w.categories)
  }

  /** How the persistence call for a submission ended. */
  datatype SubmitOutcome = Created | Rejected(message: string) | Threw

  /** `handleSubmit`: nothing happens without a signed-in user and a selected
      platform; a failed call leaves everything as it was; a successful one
      resets the wizard. */
  function Submit(w: State, signedIn: bool, outcome: SubmitOutcome): (r: State)
    ensures !signedIn || w.platform.None? || outcome != Created ==> r == w
    ensures signedIn && w.platform.Some? && outcome == Created ==> r == Reset(w)
  {
    if !signedIn || w.platform.None? then w
    else match outcome
      case Created => Reset(w)
      case Rejected(_) => w
      case Threw => w
  }

  /** The record handed to the persistence call on submission. */
  datatype NewCampaign = NewCampaign(draft: Draft, userId: string, generatedId: Option<string>, status: Campaigns.Status)

  function Payload(w: State, userId: string): (c: NewCampaign)
    ensures c.draft == w.draft && c.userId == userId && c.status == Campaigns.Draft
    ensures w.generated.None? <==> c.generatedId.None?
    ensures w.generated.Some? ==> c.generatedId == Some(w.generated.value.generatedId)
  {
    NewCampaign(w.draft, userId, if w.generated.Some? then Some(w.generated.value.generatedId) else None, Campaigns.Draft)
  }

  /** The catalog load sets the categories only when it returned data. */
  function LoadCategories(w: State, loaded: Option<seq<TaxonomyCategory>>): (r: State)
    ensures loaded.None? ==> r == w
    ensures loaded.Some? ==> r == w.(categories := loaded.value)
  {
    if loaded.Some? then w.(categories := loaded.value) else w
  }

  /** A user action or a completed external call. */
  datatype Event =
    | NextStep
    | PreviousStep
    | ChoosePlatform(p: Platform)
    | Edit(field: BasicField, value: string)
    | ChooseTaxonomy(category: string, value: string)
    | SubmitAttempt(signedIn: bool, outcome: SubmitOutcome)
    | CloseDialog
    | CategoriesLoaded(loaded: Option<seq<TaxonomyCategory>>)

  /** The category is one of the loaded ones, so the taxonomy step shows it. */
  predicate Shown(w: State, category: string) {
    exists i | 0 <= i < |w.categories| :: w.categories[i].name == category
  }

  /** Which controls the rendered step offers: a platform is picked on step 0,
      the basic fields are edited on step 1 and the taxonomy on step 2; Next
      is shown before the last step and Submit on it, each enabled only while
      the gate holds; Previous is disabled on step 0. */
  predicate Enabled(w: State, e: Event) {
    match e
    case NextStep => w.current < LastStep && Gate(w)
    case PreviousStep => w.current != 0
    case ChoosePlatform(_) => w.current == 0
    case Edit(_, _) => w.current == 1
    case ChooseTaxonomy(category, _) => w.current == 2 && Shown(w, category)
    case SubmitAttempt(_, _) => w.current == LastStep && Gate(w)
    case CloseDialog => true
    case CategoriesLoaded(_) => true
  }

  /** The effect of an event. Closing the dialog only hides it: the wizard stays
      mounted and keeps its state. */
  function Apply(w: State, e: Event): State {
    match e
    case NextStep => Next(w)
    case PreviousStep => Previous(w)
    case ChoosePlatform(p) => SelectPlatform(w, p)
    case Edit(f, v) => EditField(w, f, v)
    case ChooseTaxonomy(category, value) => ChangeTaxonomy(w, category, value)
    case SubmitAttempt(signedIn, outcome) => Submit(w, signedIn, outcome)
    case CloseDialog => w
    case CategoriesLoaded(loaded) => LoadCategories(w, loaded)
  }

  /** Runs a sequence of events; a disabled control cannot be used, so its
      event changes nothing. */
  function Run(w: State, es: seq<Event>): State
    decreases |es|
  {
    if |es| == 0 then w
    else Run(if Enabled(w, es[0]) then Apply(w, es[0]) else w, es[1..])
  }

  /** The step list keeps the fixed ids, titles and descriptions. */
  predicate SameShape(steps: seq<WizardStep>) {
    |steps| == |InitialSteps|
    && forall i :: 0 <= i < |steps| ==>
         steps[i].id == InitialSteps[i].id
         && steps[i].title == InitialSteps[i].title
         && steps[i].description == InitialSteps[i].description
  }

  /** The selected platform and the draft's platform id agree. */
  predicate PlatformLinked(w: State) {
    && (w.platform.None? ==> w.draft.platformId == "")
    && (w.platform.Some? ==> w.draft.platformId == w.platform.value.id)
  }

  /** The wizard invariant. */
  predicate Inv(w: State) {
    && SameShape(w.steps)
    && w.current <= LastStep
    && (forall i :: 0 <= i < |w.steps| ==> (w.steps[i].isActive <==> i == w.current))
    && (forall i :: 0 <= i < w.current ==> w.steps[i].isCompleted)
    && PlatformLinked(w)
    && (w.current >= 1 ==> w.draft.platformId != "")
    && (w.current >= 2 ==> w.draft.name != "" && w.draft.objective != "")
    && Fresh(w)
  }

  /** The initial state: step 0 is the only active step, nothing is completed,
      the draft is empty, and the invariant holds. */
  lemma InitialState()
    ensures Inv(Initial)
    ensures forall i :: 0 <= i < |Initial.steps| ==> !Initial.steps[i].isCompleted
    ensures forall i :: 0 <= i < |Initial.steps| ==> (Initial.steps[i].isActive <==> i == 0)
    ensures Initial.draft == EmptyDraft && Initial.platform == None && Initial.generated == None
  {
  }

  /** Resetting restores exactly the initial state, keeping the loaded catalog. */
  lemma ResetIsInitial(w: State)
    ensures Reset(w) == Initial.(categories := w.categories)
    ensures Inv(Reset(w))
  {
  }

  lemma {:induction false} NextPreservesInv(w: State)
    requires Inv(w)
    ensures Inv(Next(w))
  {
    var r := Next(w);
    if Gate(w) && w.current < LastStep {
      assert r.current == w.current + 1;
      assert w.current == 0 ==> r.draft.platformId != "";
      forall i | 0 <= i < r.current
        ensures r.steps[i].isCompleted
      {
        if i < w.current {
          assert w.steps[i].isCompleted;
        }
      }
    }
  }

  /** Every enabled event keeps the invariant. */
  lemma {:induction false} ApplyPreservesInv(w: State, e: Event)
    requires Inv(w) && Enabled(w, e)
    ensures Inv(Apply(w, e))
  {
    match e
    case NextStep => NextPreservesInv(w);
    case PreviousStep =>
    case ChoosePlatform(p) =>
    case Edit(f, v) =>
    case ChooseTaxonomy(category, value) =>
    case SubmitAttempt(signedIn, outcome) => ResetIsInitial(w);
    case CloseDialog =>
    case CategoriesLoaded(loaded) =>
  }

  /** Completed flags only go from false to true, except when a successful
      submission resets the wizard. */
  lemma CompletionIsMonotone(w: State, e: Event)
    requires Inv(w) && Enabled(w, e)
    requires !(e.SubmitAttempt? && e.signedIn && w.platform.Some? && e.outcome == Created)
    ensures |Apply(w, e).steps| == |w.steps|
    ensures forall i :: 0 <= i < |w.steps| && w.steps[i].isCompleted ==> Apply(w, e).steps[i].isCompleted
  {
  }

  /** Any run of events from a state satisfying the invariant keeps it. */
  lemma {:induction false} RunPreservesInv(w: State, es: seq<Event>)
    requires Inv(w)
    ensures Inv(Run(w, es))
    decreases |es|
  {
    if |es| > 0 {
      var next := if Enabled(w, es[0]) then Apply(w, es[0]) else w;
      if Enabled(w, es[0]) {
        ApplyPreservesInv(w, es[0]);
      }
      RunPreservesInv(next, es[1..]);
    }
  }

  /** On the review step the cached identifier is the one derived from the
      current name and platform, so the review gate is exactly its validity. */
  lemma ReviewSeesFreshId(w: State)
    requires Inv(w) && w.current == LastStep
    ensures w.platform.Some? && w.draft.name != ""
    ensures w.generated == Some(Identify(w.draft.name, w.platform.value))
    ensures Gate(w) <==> Validate(Generate(w.draft.name, w.platform.value), w.platform.value).isValid
  {
  }

  /** Whatever the user did, reaching the review step means the identifier is fresh. */
  lemma ReachedReviewIsFresh(es: seq<Event>)
    ensures var w := Run(Initial, es);
      w.current == LastStep ==> w.platform.Some? && w.generated == Some(Identify(w.draft.name, w.platform.value))
  {
    InitialState();
    RunPreservesInv(Initial, es);
  }

  /** With a convention and a non-negative length limit, the review gate holds
      and the submitted record carries the identifier derived from the name. */
  lemma ReviewGateOpens(w: State, userId: string)
    requires Inv(w) && w.current == LastStep
    requires w.platform.Some? ==> HasConvention(w.platform.value)
    requires w.platform.Some? ==> (w.platform.value.maxLength.None? || w.platform.value.maxLength.value >= 0)
    ensures Gate(w)
    ensures Payload(w, userId).generatedId == Some(Generate(w.draft.name, w.platform.value))
  {
    ReviewSeesFreshId(w);
    GeneratedPassesValidation(w.draft.name, w.platform.value);
  }

  /** A taxonomy change never alters the identifier: it depends on the name and
      the platform only. */
  lemma TaxonomyKeepsId(w: State, category: string, value: string)
    requires Inv(w)
    ensures ChangeTaxonomy(w, category, value).generated == w.generated
  {
  }

  /** The events that choose `value` for each of the given categories, in order. */
  function Choices(cats: seq<TaxonomyCategory>, value: string): (es: seq<Event>)
    ensures |es| == |cats|
    ensures forall i :: 0 <= i < |cats| ==> es[i] == ChooseTaxonomy(cats[i].name, value)
  {
    seq(|cats|, i requires 0 <= i < |cats| => ChooseTaxonomy(cats[i].name, value))
  }

  /** On the taxonomy step, choosing a non-empty value for shown categories
      fills each of them, keeps every filled category filled, and changes
      neither the step nor the name, objective, platform or catalog. */
  lemma {:induction false} RunChoices(w: State, cats: seq<TaxonomyCategory>, value: string)
    requires w.current == 2 && value != ""
    requires forall i :: 0 <= i < |cats| ==> Shown(w, cats[i].name)
    ensures var r := Run(w, Choices(cats, value));
      && r.current == 2 && r.steps == w.steps && r.categories == w.categories && r.platform == w.platform
      && r.draft.name == w.draft.name && r.draft.objective == w.draft.objective && r.draft.platformId == w.draft.platformId
      && (forall k :: Filled(w.draft.taxonomy, k) ==> Filled(r.draft.taxonomy, k))
      && (forall i :: 0 <= i < |cats| ==> Filled(r.draft.taxonomy, cats[i].name))
    decreases |cats|
  {
    if |cats| > 0 {
      var es := Choices(cats, value);
      var next := ChangeTaxonomy(w, cats[0].name, value);
      RunStep(w, es);
      assert es[1..] == Choices(cats[1..], value);
      assert Filled(next.draft.taxonomy, cats[0].name);
      RunChoices(next, cats[1..], value);
      forall i | 0 < i < |cats| ensures Shown(next, cats[i].name) {
        assert cats[1..][i - 1] == cats[i];
      }
      var r := Run(w, es);
      forall i | 0 <= i < |cats| ensures Filled(r.draft.taxonomy, cats[i].name) {
        if i > 0 {
          assert cats[1..][i - 1] == cats[i];
        }
      }
    }
  }

  /** Running two event sequences one after the other. */
  lemma {:induction false} RunAppend(w: State, a: seq<Event>, b: seq<Event>)
    ensures Run(w, a + b) == Run(Run(w, a), b)
    decreases |a|
  {
    if |a| == 0 {
      assert a + b == b;
    } else {
      var next := if Enabled(w, a[0]) then Apply(w, a[0]) else w;
      assert (a + b)[0] == a[0];
      assert (a + b)[1..] == a[1..] + b;
      RunAppend(next, a[1..], b);
    }
  }

  /** A complete creation flow: the catalog loads, the user chooses a platform,
      fills the name and objective, chooses a value for every category, and
      presses Next on each step. The wizard reaches the review step with every
      earlier step completed and every category filled, and Create is enabled. */
  lemma {:induction false} HappyPath(p: Platform, name: string, objective: string, cats: seq<TaxonomyCategory>, value: string)
    requires p.id != "" && name != "" && objective != "" && value != ""
    requires HasConvention(p) && (p.maxLength.None? || p.maxLength.value >= 0)
    ensures var w := Run(Initial, Journey(p, name, objective, cats, value));
      && Inv(w)
      && w.current == LastStep
      && w.categories == cats
      && (forall i :: 0 <= i < LastStep ==> w.steps[i].isCompleted)
      && (forall i :: 0 <= i < |cats| ==> Filled(w.draft.taxonomy, cats[i].name))
      && Enabled(w, SubmitAttempt(true, Created))
  {
    var w0 := LoadCategories(Initial, Some(cats));
    var basics := Basics(p, name, objective);
    var choices := Choices(cats, value);
    var es := Journey(p, name, objective, cats, value);
    var w5 := Run(w0, basics);
    var w7 := Run(w5, choices);
    var w8 := Next(w7);
    ReachTaxonomy(p, name, objective, cats);
    assert Inv(w5) by {
      InitialState();
      ApplyPreservesInv(Initial, CategoriesLoaded(Some(cats)));
      RunPreservesInv(w0, basics);
    }
    assert forall i :: 0 <= i < |cats| ==> Shown(w5, cats[i].name) by {
      forall i | 0 <= i < |cats| ensures Shown(w5, cats[i].name) {
        assert w5.categories[i].name == cats[i].name;
      }
    }
    RunChoices(w5, cats, value);
    assert Gate(w7);
    assert |w7.steps| == 4 by {
      assert w7.steps == w5.steps;
    }
    assert Run(Initial, es) == w8 by {
      var rest := (basics + choices) + [NextStep];
      assert es == [CategoriesLoaded(Some(cats))] + rest;
      assert es[1..] == rest;
      RunStep(Initial, es);
      RunAppend(w0, basics + choices, [NextStep]);
      RunAppend(w0, basics, choices);
      RunStep(w7, [NextStep]);
    }
    assert w8.current == LastStep && w8.platform == Some(p) && w8.categories == cats;
    assert Inv(w8) by {
      InitialState();
      RunPreservesInv(Initial, es);
    }
    ReviewGateOpens(w8, "");
  }

  /** The events of a complete creation flow. */
  function Journey(p: Platform, name: string, objective: string, cats: seq<TaxonomyCategory>, value: string): seq<Event> {
    [CategoriesLoaded(Some(cats))] + ((Basics(p, name, objective) + Choices(cats, value)) + [NextStep])
  }

  /** The events of the platform and basic-info steps. */
  function Basics(p: Platform, name: string, objective: string): seq<Event> {
    [ChoosePlatform(p), NextStep, Edit(Name, name), Edit(Objective, objective), NextStep]
  }

  /** Choosing a platform, filling the name and objective and pressing Next
      twice reaches the taxonomy step, whatever catalog is loaded. */
  lemma ReachTaxonomy(p: Platform, name: string, objective: string, cats: seq<TaxonomyCategory>)
    requires p.id != "" && name != "" && objective != ""
    ensures var w := Run(LoadCategories(Initial, Some(cats)), Basics(p, name, objective));
      w.current == 2 && w.categories == cats && w.draft.name == name && w.platform == Some(p)
  {
    var w0 := LoadCategories(Initial, Some(cats));
    var es := Basics(p, name, objective);
    var w1 := SelectPlatform(w0, p);
    var w2 := Next(w1);
    var w3 := EditField(w2, Name, name);
    var w4 := EditField(w3, Objective, objective);
    var w5 := Next(w4);
    assert w2.current == 1;
    assert w5.current == 2;
    assert Run(w5, es[5..]) == w5;
    assert Run(w4, es[4..]) == w5 by {
      RunStep(w4, es[4..]);
    }
    assert Run(w3, es[3..]) == w5 by {
      RunStep(w3, es[3..]);
    }
    assert Run(w2, es[2..]) == w5 by {
      RunStep(w2, es[2..]);
    }
    assert Run(w1, es[1..]) == w5 by {
      RunStep(w1, es[1..]);
    }
    assert Run(w0, es) == w5 by {
      RunStep(w0, es);
    }
  }

  /** One step of a run. */
  lemma RunStep(w: State, es: seq<Event>)
    requires |es| > 0 && Enabled(w, es[0])
    ensures Run(w, es) == Run(Apply(w, es[0]), es[1..])
  {
  }

  /** From the initial state Previous changes nothing, and Next without a
      platform leaves step 0 current and incomplete. */
  lemma FirstStepGuards()
    ensures Previous(Initial) == Initial
    ensures Next(Initial) == Initial
    ensures Next(Initial).current == 0 && !Next(Initial).steps[0].isCompleted
  {
  }

  /** The footer offers Next before the last step and Create on it, so at most
      one of them is usable, and one is usable exactly when the gate holds;
      Previous is usable exactly away from step 0. */
  lemma FooterControls(w: State, signedIn: bool, outcome: SubmitOutcome)
    requires Inv(w)
    ensures !(Enabled(w, NextStep) && Enabled(w, SubmitAttempt(signedIn, outcome)))
    ensures Enabled(w, NextStep) || Enabled(w, SubmitAttempt(signedIn, outcome)) <==> Gate(w)
    ensures Enabled(w, PreviousStep) <==> w.current > 0
  {
  }
}
